=== FILE: README.md ===
# wit: references, history and merge bookkeeping

`wit` is a small version-control tool. A repository keeps its state in a `.wit`
directory:

- `references.txt` has a first line `HEAD=<id>[,<merged-id>...]`, followed by one line
  `<name>=<id>` per branch;
- `activated.txt` names the active branch;
- `staging_area/` holds the files staged for the next commit;
- `images/<id>/` holds one commit's copy of the staging area, and `images/<id>.txt` holds
  its metadata (`parent=`, `date=`, `message=`).

This project models the bookkeeping of `wit.py` in Dafny. The filesystem is replaced by
values:

- the reference file is an `Option<string>`, absent before the first commit;
- the images are a map from commit id to `Image(tree, meta)`;
- the staging area and the working tree are maps from path to content.

The model is built in layers:

- **Text** (`text.dfy`): the Python string primitives the program relies on. These are
  `str.find`, `str.split`, `readlines`, slicing, `str.replace`, and a rewrite through a
  file opened `r+` without truncation.
- **References** (`references.dfy`): the readers and writers of `references.txt`, as the
  program slices the text. These are `get_head_commit_id`, `get_branches`,
  `get_branch_id`, `gen_new_text`, `log_references`, `add_branch_label`, `branch` and
  `update_references`. A malformed file, where Python would raise, gives `None`.
- **ReferenceRecord** (`reference_record.dfy`): the same file as a record
  `Refs(head, mergeNotes, branches)`, together with:
  - a serialiser and a parser, proved to be inverse to each other;
  - the record-level meaning of each update: advance on commit, create a branch, note a
    merge.
- **ReferenceLaws** (`reference_laws.dfy`): each text-level function applied to a
  serialised record agrees with its record-level partner.
- **Snapshots** (`snapshots.dfy`): `get_files_for_merging`, the copy loop of `merge`, and
  the overlaying copy of `restore_tree`.
- **Ancestry** (`ancestry.dfy`) and **History** (`history.dfy`): the commit graph as a map
  from id to parent, read back from the `parent=` line that `log_metadata` writes. On top
  of it sit the HEAD ancestor list (`get_ordered_list_of_commit_ids`) and the prime-commit
  search (`get_prime_commit_id`). Both Python loops are unbounded. The model gives them
  fuel equal to the number of stored images, and proves that this fuel never runs out on
  a store built by commits (`GroundedBy`, a rank witnessing the order the commits were
  made in).
- **Repository** (`repository.dfy`): the commands `commit`, `checkout`, `branch` and
  `merge` over the whole repository. Each returns the new repository and an outcome:
  - `Done`;
  - `Stopped`, where the program prints a message and returns;
  - `Raised`, where Python raises. Every write made before the exception stays.
- **RepositoryLaws** (`repository_laws.dfy`): the invariant `Consistent` that the commands
  keep. It says that:
  - the images form a grounded store;
  - there is no reference file before the first commit;
  - otherwise the file parses to a valid record whose ids are all stored.

  On top of the invariant, RepositoryLaws proves what each command does to the record and
  to the history.

The commit id and the date are parameters. The `not_staged` list that `check_status`
returns is a parameter of `Checkout`.

Behaviours of `wit.py` that the model keeps:

- A commit off `master` before any reference file exists prints and returns
  (wit.py:163-168).
- Checkout with unstaged files prints and returns. When the target is a branch name, the
  active branch has already been switched by then.
- Checkout of an id that has no image does nothing beyond that switch (wit.py:97-100).
- `branch` with a listed name is a silent no-op.
- Merging a name that is not a branch, and that holds no `=`, newline or carriage return,
  reads `None` for its id. Opening `images/None.txt` then fails (`Raised(MissingCommit)`),
  before anything is written.
- `merge` runs `update_references` after an inner commit that completed or stopped. Only
  an exception from the inner commit skips it.
- These are all the ways a command can end with an exception after it has written:
  - `commit` stores the image first. It then raises (`Raised(MalformedReferences)`) when
    `gen_new_text` meets a line that does not split into two fields at `=`.
  - `merge` rewrites the staging area with the merged files first. Its inner commit then
    raises when the new id is already stored (`Raised(DuplicateCommitId)`).
  - `merge` rewrites the staging area first. Its inner commit then stores the image and
    raises on a malformed reference file (`Raised(MalformedReferences)`).
  - `merge` rewrites the staging area first. When the reference file is missing and the
    active branch is not `master`, its inner commit stops, and `update_references` then
    raises (`Raised(MissingReferences)`). With the file missing, the merge gets that far
    only when an image named `None` exists.
  - Checkout of a listed branch with an image copies the image over the working tree. It
    then raises on a malformed reference file (`Raised(MalformedReferences)`).
  - Checkout of a raw commit id copies the image over the working tree. It then calls
    `log_references` with an unbound `active_branch` (`Raised(ActiveBranchUnbound)`).

## Model

| member | source | states |
|---|---|---|
| Text.ReadLines | wit.py:200 | `readlines`: the lines concatenate back to the text, none is empty, every line but the last ends with a newline, and no line holds a newline before its last character |
| Text.FirstField | wit.py:112 | `split(sep)[0]`: the text up to the first occurrence of the separator, or all of it when there is none |
| Text.ReplaceAllAtEnd | wit.py:41 | replacing the newline at the end of a newline-free line appends the replacement in its place |
| Text.OverwriteFromStart | wit.py:38-44 | writing from the start of a file opened `r+` without truncating: a text at least as long as the old one replaces it entirely |
| References.HeadCommitId | wit.py:218-225 | no HEAD exactly when the file is missing or its first line has no `=`; otherwise at most 40 characters |
| References.Branches | wit.py:212-215 | one name per line after the first, each a prefix of its line |
| References.BranchId | wit.py:109-116 | an id is found exactly when the file exists and contains a newline, the name and `=` |
| References.RewriteLine | wit.py:205-209 | a line is rewritten only when it splits into exactly two fields, and becomes either itself or `<active>=<id>` |
| References.RewriteLines | wit.py:202-209 | the loop of `gen_new_text` succeeds exactly when every line splits into two fields at `=` |
| References.GenNewText | wit.py:198-209 | a rewritten file starts with `HEAD=<new id>` and a newline |
| References.AddBranchLabel | wit.py:83-86 | the file gains one line at its end: the name, `=`, and HEAD as printed |
| References.Branch | wit.py:76-80 | a listed name leaves the file unchanged; any other name makes it strictly longer |
| References.UpdateReferences | wit.py:37-44 | fails only on an empty file; otherwise every newline of the first line becomes `,<id>` plus a newline and the rest of the file is kept |
| ReferenceRecord.Lookup | wit.py:109-112 | the id on the first line bearing the name, and none exactly when no line bears it |
| ReferenceRecord.MoveBranch | wit.py:202-209 | every line keeps its position; the line `(active, previous HEAD)` becomes `(active, new id)` and every other line is copied |
| ReferenceRecord.Advance | wit.py:198-209 | after a commit HEAD is the new id, the merge notes are gone and the branch names are unchanged |
| ReferenceRecord.Initial | wit.py:192-195 | the first commit's record: HEAD and `master` are the new id, and `master` is the only branch |
| ReferenceRecord.CreateBranch | wit.py:76-86 | a listed name leaves the record unchanged; a new name is appended, bound to HEAD, after the unchanged old lines |
| ReferenceRecord.RecordMerge | wit.py:37-44 | the merge note is appended after the old ones; HEAD and the branches are kept |
| ReferenceRecord.AdvanceMovesActiveOnlyFromHead | wit.py:204-209 | the compare-and-swap: after a commit a branch reads as the new id exactly when it is the active branch and read as the old HEAD; every other branch reads as before |
| ReferenceRecord.CreateBranchIdempotent | wit.py:76-80 | creating a branch twice is creating it once |
| ReferenceRecord.CreateBranchKeepsOthers | wit.py:83-86 | creating a branch leaves every other name's id alone |
| ReferenceRecord.AdvanceValid | wit.py:198-209 | a commit with a generated id keeps the record valid: generated ids and unique branch names |
| ReferenceRecord.CreateBranchValid | wit.py:76-86 | creating a branch with a one-line name keeps the record valid |
| ReferenceRecord.RecordMergeValid | wit.py:37-44 | noting a generated id keeps the record valid |
| ReferenceRecord.ParseSerialize | wit.py:212-221 | a well-formed record reads back from its text |
| ReferenceRecord.SerializeParse | wit.py:212-221 | a text that parses is exactly the serialisation of what it parses to |
| ReferenceLaws.HeadOfSerialized | wit.py:218-221 | `get_head_commit_id` of a serialised record is its HEAD |
| ReferenceLaws.BranchesOfSerialized | wit.py:212-215 | `get_branches` of a serialised record lists its names in order |
| ReferenceLaws.BranchIdOfSerialized | wit.py:109-112 | `get_branch_id` of a serialised record is the record's lookup of the name |
| ReferenceLaws.GenNewTextOfSerialized | wit.py:198-209 | `gen_new_text` of a serialised record is the serialisation of the advanced record |
| ReferenceLaws.FirstCommitReferences | wit.py:187-195 | with no file, `log_references` writes exactly `HEAD=<id>` and `master=<id>`, the initial record |
| ReferenceLaws.BranchListed | wit.py:76-80 | `branch` with a listed name is the record's no-op |
| ReferenceLaws.LabelOfSerialized | wit.py:83-86 | for a new name the text gains exactly the line `<name>=<HEAD>` at its end |
| ReferenceLaws.BranchOfSerialized | wit.py:76-86 | `branch` of a serialised record is the serialisation of `CreateBranch` |
| ReferenceLaws.UpdateReferencesOfSerialized | wit.py:37-44 | `update_references` of a serialised record is the serialisation of the record with the merge note |
| ReferenceLaws.UpdateReferencesKeepsHead | wit.py:37-44 | with 40-character ids, HEAD reads the same before and after a merge note |
| Snapshots.FilesForMerging | wit.py:47-55 | the changed files, in the branch's walk order |
| Snapshots.FilesForMergingOnListing | wit.py:47-55 | on a listing of the branch tree, the result names each changed file exactly once |
| Snapshots.MergeStaging | wit.py:30-32 | every changed file takes the branch's content; every other staged file keeps its own |
| Snapshots.CopyFiles | wit.py:31-32 | the copy loop: every listed file takes the branch's content, every other staged file keeps its own, and nothing else is added |
| Snapshots.CopyMergeFiles | wit.py:30-32 | copying the selected files one by one gives that staging area, whatever the walk order |
| Snapshots.Overlay | wit.py:119-121 | `copy_tree`: the image's files overwrite, every other working file stays |
| Snapshots.OverlayIsCopy | wit.py:119-121 | `copy_tree` equals copying the image's files one by one over the working tree, in any listing order |
| Ancestry.Chain | wit.py:277-288 | the walk starts at its first id, is empty exactly when that id has no parent entry, and is bounded by its fuel |
| Ancestry.ChainMembers | wit.py:281-284 | every id on the walk has a readable parent |
| Ancestry.ChainLinks | wit.py:281-284 | each id on the walk is followed by its recorded parent |
| Ancestry.FirstInIsFirst | wit.py:58-63 | the search result is the first element of the walk found in the history, and none when no element is |
| Ancestry.PrimeCommitId | wit.py:58-63 | a prime commit found is in the history |
| Ancestry.PrimeIsFirstOnChain | wit.py:58-63 | the prime commit is the first id of the tip's ancestor walk that the history holds |
| Ancestry.ChainStable | wit.py:277-288 | on ranked parents more fuel changes nothing, and the walk ends at an id whose parent is unreadable |
| Ancestry.ChainComplete | wit.py:277-288 | fuel equal to the number of commits completes the walk |
| Ancestry.PrimeComplete | wit.py:58-63 | the same fuel completes the prime-commit search |
| Ancestry.ChainAfterAdd | wit.py:163-176 | a new commit no link names does not change the walk from any other commit |
| History.ReadParent | wit.py:228-230 | `get_parent_commit_id` on a written metadata file never fails and gives at most 40 characters |
| History.ParentLineRead | wit.py:228-230 | a first line `parent=<p>` reads back as `p` with its newline, cut to 40 characters |
| History.ReadParentOf | wit.py:179-184 | the parent `log_metadata` wrote reads back as itself, and a root's reads as the `None` sentinel with its newline |
| History.OrderedCommitIds | wit.py:277-288 | the ordered list starts with HEAD |
| History.OrderedCommitIdsStored | wit.py:281-288 | every listed id names a stored image |
| History.SentinelNotStored | wit.py:285-288 | the `None` sentinel names no image, so the walk drops it |
| History.ParentLinkOf | wit.py:179-184 | a commit's link is its parent or the sentinel, and leads to a stored, older commit exactly when it has a parent |
| History.OrderedCommitIdsComplete | wit.py:277-288 | on a grounded store the list is complete, and is empty exactly when HEAD names no image |
| History.OrderedCommitIdsEndAtRoot | wit.py:281-288 | a non-empty list ends at the root commit, whose link is the sentinel |
| History.PrimeOf | wit.py:58-63 | a prime commit found is in HEAD's history, and its tip was in it or stored |
| History.PrimeStored | wit.py:58-63 | a prime commit and its tip are stored images |
| History.PrimeOfComplete | wit.py:58-63 | on a grounded store the search never runs out of fuel, and finds the first id of the tip's walk in the history |
| History.GroundedAdd | wit.py:163-176 | storing a commit whose parent is stored keeps the store grounded, the new id ranked last |
| History.ChainAfterCommit | wit.py:163-176 | a new commit does not change the walk from any older commit |
| History.ChainFromNewCommit | wit.py:179-184 | the walk from a new commit is its id followed by the walk from its recorded parent |
| History.OrderedCommitIdsAfterCommit | wit.py:163-184 | storing a commit whose parent is the old HEAD and moving HEAD to it puts its id in front of the old list |
| Repository.Commit | wit.py:163-184 | the first-commit guard stops exactly off `master` with no file and changes nothing; otherwise, unless the id is taken (which raises and changes nothing), the image of the staging area is stored under the new id with the old HEAD, the date and the message as metadata, and with an existing file the text becomes `log_references`' rewrite, or the command raises when that fails; with no file the text is `HEAD=<id>` and `master=<id>` |
| Repository.Checkout | wit.py:89-104 | a listed branch is activated before the guard; unstaged files stop before the tree or the file is touched; a missing image changes nothing more; a listed branch with an image has its tree restored, and then the file becomes `log_references`' text or a malformed file raises; a raw id raises after the tree is restored |
| Repository.Branch | wit.py:76-80 | only the file changes: it becomes `branch`'s text, so a listed name changes nothing and a new one makes the file strictly longer |
| Repository.NoteMerge | wit.py:34-44 | after a commit that did not raise, the file becomes `update_references`' rewrite of it; a missing file and an empty file raise; a commit that raised passes through; only the file changes |
| Repository.MergeBase | wit.py:23-27 | the branch's tip as read, and its prime commit in HEAD's history; both are stored images |
| Repository.Merge | wit.py:23-44 | fails before writing exactly when no prime commit is found; otherwise the staging area becomes `MergeStaging` of the tip and prime trees; a completed merge stores it under a fresh id with the old HEAD as parent and the merge message, and the file becomes `update_references` applied to `log_references`' text |
| RepositoryLaws.ReadTracked | wit.py:218-221 | a tracked file is the serialisation of its record, and its HEAD is the record's |
| RepositoryLaws.InitConsistent | wit.py:12-20 | `init` starts a consistent repository |
| RepositoryLaws.CommitRecord | wit.py:163-176 | on a consistent repository a commit with a fresh id completes, and the file holds the initial record or the old record advanced to the new id |
| RepositoryLaws.CommitGrounded | wit.py:179-184 | the new image's parent is the HEAD the file named, and the store stays grounded with the new id ranked last |
| RepositoryLaws.CommitConsistent | wit.py:163-176 | `commit` keeps a repository consistent, and stops or raises only for the first-commit guard or a taken id |
| RepositoryLaws.CommitExtendsHistory | wit.py:163-176 | after a commit the ordered commit list is the new id followed by the old list |
| RepositoryLaws.ReadBranch | wit.py:109-116 | on a tracked file a listed branch reads as its stored, generated id |
| RepositoryLaws.CheckoutBranch | wit.py:89-104 | checking out a listed branch with nothing unstaged activates it, copies its image over the working tree and advances the record to its id; HEAD and the branch then name that id |
| RepositoryLaws.CheckoutConsistent | wit.py:89-104 | `checkout` keeps a repository consistent, whatever the target and however it ends |
| RepositoryLaws.BranchRecord | wit.py:76-86 | `branch` writes the record `CreateBranch` predicts; HEAD does not move, and the name reads as its old id or as HEAD |
| RepositoryLaws.BranchAppendsLine | wit.py:83-86 | a new name adds exactly `<name>=<HEAD>` at the end, and `get_branches` lists the old names followed by it |
| RepositoryLaws.BranchKeepsOthers | wit.py:76-86 | every other name reads as the same id after `branch` |
| RepositoryLaws.BranchIdempotent | wit.py:76-80 | `branch` a second time with the same name changes nothing |
| RepositoryLaws.BranchConsistent | wit.py:76-86 | `branch` keeps a repository consistent |
| RepositoryLaws.NoteTracked | wit.py:37-44 | the note added to a tracked file is the record's merge note, and the file stays tracked |
| RepositoryLaws.MergeRecord | wit.py:23-34 | a merge completes: the new image has the old HEAD as parent and the merged staging area as tree, and the record is advanced and then carries the branch's id as a merge note |
| RepositoryLaws.MergeConsistent | wit.py:23-34 | `merge` keeps a repository consistent; it completes, or raises for a missing prime commit or a taken id |
| RepositoryLaws.MergeBaseIsFirstShared | wit.py:58-63 | the base is the first ancestor of the branch's tip in HEAD's history, so a tip already in it is its own base |
| RepositoryLaws.MergeAlreadyMerged | wit.py:23-34 | merging a branch whose tip is already in HEAD's history leaves the staging area as it was |
| RepositoryLaws.UnlistedBranchId | wit.py:109-116 | `get_branch_id` finds nothing for a name `get_branches` does not list |
| RepositoryLaws.MergeUnknownBranch | wit.py:23-28 | merging a name that is not a branch raises before anything is written |

## Left out

- `graph`, `get_graph_fig` and `get_list_of_arrows` (wit.py:270-359) are left out: they draw the history with plotly and compute nothing about it.
- The command-line dispatch (wit.py:362-382) and every `print` are left out: they are I/O. A printed message is the `Stopped` outcome.
- `get_parent_directory` (wit.py:249-256) and `get_files` (wit.py:259-267) are left out: they walk the real filesystem. The walk order of `get_files` is a parameter, and `CopyMergeFiles` shows that the order does not matter.
- The copying in `add` (wit.py:233-246) is left out, with its hard-coded backslash paths. The staging area is a value that the commands take as given.
- The internals of `check_status` and `status` (wit.py:126-160) are left out: they compare real files with `filecmp`. Their `not_staged` list is a parameter of `Checkout`.
- Id generation (wit.py:170) and the clock (wit.py:183) are parameters. The laws assume a fresh 40-hex-digit id.
- `get_activated_branch` and `update_activated_branch` (wit.py:66-73) are the `active` field of the repository.
- `filecmp.cmp` is modelled as content equality. Its shallow signature comparison is left out.
- `Repository.Init` models only the state `init` creates (wit.py:12-20). It has no contract of its own: `InitConsistent` states what it establishes. Running `init` a second time raises `FileExistsError`, and that is not modelled.
- Both unbounded loops (wit.py:58-63, wit.py:280-288) run with fuel equal to the number of stored images. On a store that commits build, the fuel provably never runs out. On a cyclic store that commits cannot build, Python would loop forever, and the model stops instead.
- A target of `checkout` that names a directory under `images/` but not an image is not modelled: the store holds images only.
- A reference file or metadata file that was edited by hand is modelled by the text functions, but the laws cover only files that the commands wrote.
- Files are modelled as the text Python reads from them in text mode, after newline translation. A carriage return is not modelled as a line break. Branch names and the fields of the HEAD line are therefore required to hold no carriage return.
- ReferenceRecord.CreateBranchValid: requires a name without `=`, a newline or a carriage return, since a valid record holds only such names.
- ReferenceLaws.BranchIdOfSerialized: requires a name without `=`, a newline or a carriage return. A name with a newline can match across lines in `get_branch_id` (wit.py:112).
- RepositoryLaws.BranchRecord: requires a branch name without `=`, a newline or a carriage return. Such a name would corrupt the file, and `wit.py` does not check for it.
- RepositoryLaws.BranchAppendsLine: requires a branch name without `=`, a newline or a carriage return, for the reason given for `BranchRecord`.
- RepositoryLaws.BranchKeepsOthers: requires a branch name without `=`, a newline or a carriage return, for the reason given for `BranchRecord`.
- RepositoryLaws.BranchIdempotent: requires a branch name without `=`, a newline or a carriage return, for the reason given for `BranchRecord`.
- RepositoryLaws.BranchConsistent: requires a branch name without `=`, a newline or a carriage return, for the reason given for `BranchRecord`.
- RepositoryLaws.UnlistedBranchId: requires a name without `=`, a newline or a carriage return. A name with a newline can match across lines in `get_branch_id` (wit.py:112): `master=<id>\nfoo` is not listed, yet it resolves to foo's id when foo follows master.
- RepositoryLaws.MergeUnknownBranch: requires a name without `=`, a newline or a carriage return, because it rests on `UnlistedBranchId`. A name that matches across lines resolves to an id and is merged.
- ReferenceRecord.Advance: states the effect on the record. The text-level agreement is `GenNewTextOfSerialized`, and per-line contents are stated by `MoveBranch`.
- History.OrderedCommitIds: states only that the list starts at HEAD. What the rest of the list is, is stated by `OrderedCommitIdsStored`, `ChainLinks`, `OrderedCommitIdsComplete` and `OrderedCommitIdsEndAtRoot`.

=== FILE: ancestry.dfy ===
/** The two walks over the parent links: the ancestor list of a commit, and the search for
    the first ancestor of a branch tip that lies in a given history. Both run on a map from
    commit id to the parent id its metadata names; an id that is not a key has no readable
    metadata, which is where a walk stops. */
module Ancestry {
  import opened Optional

  type Parents = map<string, string>

  /** Two parent maps with the same links are the same map. */
  lemma SameParents(a: Parents, b: Parents)
    requires forall k :: (k in a <==> k in b) && (k in a ==> a[k] == b[k])
    ensures a == b
  {
  }

  /** The ancestor list from `cur`: each id is followed by its parent, and the list stops
      before the first id that is not a key. `fuel` bounds the walk. */
  function Chain(parents: Parents, cur: string, fuel: nat): (r: seq<string>)
    ensures |r| <= fuel
    ensures r != [] <==> fuel > 0 && cur in parents
    ensures r != [] ==> r[0] == cur
    decreases fuel
  {
    if fuel == 0 || cur !in parents then []
    else [cur] + Chain(parents, parents[cur], fuel - 1)
  }

  /** Every id of the walk is a key. */
  lemma {:induction false} ChainMembers(parents: Parents, cur: string, fuel: nat)
    ensures forall k :: 0 <= k < |Chain(parents, cur, fuel)| ==> Chain(parents, cur, fuel)[k] in parents
    decreases fuel
  {
    if fuel > 0 && cur in parents {
      var rest := Chain(parents, parents[cur], fuel - 1);
      ChainMembers(parents, parents[cur], fuel - 1);
      ChainCons(parents, cur, fuel);
      assert forall k :: 1 <= k < |rest| + 1 ==> ([cur] + rest)[k] == rest[k - 1];
    }
  }

  /** Each id of the walk is followed by its parent. */
  lemma {:induction false} ChainLinks(parents: Parents, cur: string, fuel: nat)
    ensures forall k :: 0 <= k < |Chain(parents, cur, fuel)| - 1 ==>
              && Chain(parents, cur, fuel)[k] in parents
              && Chain(parents, cur, fuel)[k + 1] == parents[Chain(parents, cur, fuel)[k]]
    decreases fuel
  {
    if fuel > 0 && cur in parents {
      var rest := Chain(parents, parents[cur], fuel - 1);
      ChainLinks(parents, parents[cur], fuel - 1);
      ChainCons(parents, cur, fuel);
      var r := [cur] + rest;
      forall k | 0 <= k < |r| - 1
        ensures r[k] in parents && r[k + 1] == parents[r[k]]
      {
        if k > 0 {
          assert r[k] == rest[k - 1] && r[k + 1] == rest[k];
        } else {
          assert r[1] == rest[0];
        }
      }
    }
  }

  /** The first element of `s` that `history` contains. */
  function FirstIn(s: seq<string>, history: seq<string>): (r: Option<string>)
    ensures r.Some? ==> r.value in history
  {
    if s == [] then None
    else if s[0] in history then Some(s[0])
    else FirstIn(s[1..], history)
  }

  lemma FirstInCons(x: string, rest: seq<string>, history: seq<string>)
    ensures FirstIn([x] + rest, history) == if x in history then Some(x) else FirstIn(rest, history)
  {
    assert ([x] + rest)[0] == x && ([x] + rest)[1..] == rest;
  }

  /** `FirstIn` finds the element of least index that `history` holds, and `None` exactly
      when there is none. */
  lemma {:induction false} FirstInIsFirst(s: seq<string>, history: seq<string>)
    ensures FirstIn(s, history).None? <==> forall k :: 0 <= k < |s| ==> s[k] !in history
    ensures FirstIn(s, history).Some? ==>
              exists k :: 0 <= k < |s| && s[k] == FirstIn(s, history).value
                          && forall j :: 0 <= j < k ==> s[j] !in history
  {
    if s != [] && s[0] !in history {
      FirstInIsFirst(s[1..], history);
      assert forall k :: 1 <= k < |s| ==> s[k] == s[1..][k - 1];
      if FirstIn(s[1..], history).Some? {
        var k :| 0 <= k < |s[1..]| && s[1..][k] == FirstIn(s, history).value
                 && forall j :: 0 <= j < k ==> s[1..][j] !in history;
        assert s[k + 1] == FirstIn(s, history).value;
        assert forall j :: 1 <= j < k + 1 ==> s[j] == s[1..][j - 1];
      }
    }
  }

  /** The loop of `get_prime_commit_id`: follow the parents of `id` until one is in
      `history`. `None` when an id outside `history` is not a key, or the fuel runs out. */
  function PrimeCommitId(parents: Parents, history: seq<string>, id: string, fuel: nat): (r: Option<string>)
    ensures r.Some? ==> r.value in history
    ensures r.Some? ==> id in history || id in parents
    decreases fuel
  {
    if id in history then Some(id)
    else if fuel == 0 || id !in parents then None
    else PrimeCommitId(parents, history, parents[id], fuel - 1)
  }

  /** One step of the walk. */
  lemma ChainCons(parents: Parents, cur: string, fuel: nat)
    requires fuel > 0 && cur in parents
    ensures Chain(parents, cur, fuel) == [cur] + Chain(parents, parents[cur], fuel - 1)
  {
  }

  /** The prime commit is the first id of the tip's ancestor list that `history` holds; a tip
      inside `history` is its own prime commit. */
  lemma {:induction false} PrimeIsFirstOnChain(parents: Parents, history: seq<string>, id: string, fuel: nat)
    requires forall k :: 0 <= k < |history| ==> history[k] in parents
    ensures PrimeCommitId(parents, history, id, fuel) == FirstIn(Chain(parents, id, fuel + 1), history)
    decreases fuel
  {
    if id in parents {
      var rest := Chain(parents, parents[id], fuel);
      ChainCons(parents, id, fuel + 1);
      FirstInCons(id, rest, history);
      if id !in history && fuel > 0 {
        PrimeIsFirstOnChain(parents, history, parents[id], fuel - 1);
      }
    } else {
      assert id !in history;
    }
  }

  // ----- parent maps built one commit at a time -----

  /** `rank` numbers the keys below their count so that every parent that is a key has a
      smaller number than its child: the order in which the commits were made. */
  predicate Ranked(parents: Parents, rank: map<string, nat>) {
    && rank.Keys == parents.Keys
    && forall c :: c in parents ==> rank[c] < |parents| && (parents[c] in parents ==> rank[parents[c]] < rank[c])
  }

  /** From an id of rank `k` the walk takes at most `k + 1` steps, so more fuel changes
      nothing, and it ends at an id whose parent is not a key. */
  lemma {:induction false} ChainStable(parents: Parents, rank: map<string, nat>, c: string, n: nat)
    requires Ranked(parents, rank) && c in parents && n >= rank[c] + 1
    ensures Chain(parents, c, n) == Chain(parents, c, rank[c] + 1)
    ensures var r := Chain(parents, c, n); r != [] && r[|r| - 1] in parents && parents[r[|r| - 1]] !in parents
    decreases rank[c]
  {
    var p := parents[c];
    assert Chain(parents, c, n) == [c] + Chain(parents, p, n - 1);
    assert Chain(parents, c, rank[c] + 1) == [c] + Chain(parents, p, rank[c]);
    if p in parents {
      ChainStable(parents, rank, p, n - 1);
      ChainStable(parents, rank, p, rank[c]);
      var tail := Chain(parents, p, n - 1);
      assert Chain(parents, c, n)[|Chain(parents, c, n)| - 1] == tail[|tail| - 1];
    }
  }

  /** With fuel at least the number of keys the walk is complete: one more unit of fuel gives
      the same list, and a non-empty list ends at an id whose parent is not a key. */
  lemma ChainComplete(parents: Parents, rank: map<string, nat>, cur: string, n: nat)
    requires Ranked(parents, rank) && n >= |parents|
    ensures Chain(parents, cur, n + 1) == Chain(parents, cur, n)
    ensures var r := Chain(parents, cur, n); r != [] ==> r[|r| - 1] in parents && parents[r[|r| - 1]] !in parents
  {
    if cur in parents {
      ChainStable(parents, rank, cur, n);
      ChainStable(parents, rank, cur, n + 1);
    }
  }

  /** Hence the prime commit search does not run out of fuel either. */
  lemma PrimeComplete(parents: Parents, rank: map<string, nat>, history: seq<string>, id: string, n: nat)
    requires Ranked(parents, rank) && n >= |parents|
    requires forall k :: 0 <= k < |history| ==> history[k] in parents
    ensures PrimeCommitId(parents, history, id, n + 1) == PrimeCommitId(parents, history, id, n)
  {
    PrimeIsFirstOnChain(parents, history, id, n);
    PrimeIsFirstOnChain(parents, history, id, n + 1);
    ChainComplete(parents, rank, id, n + 1);
  }

  /** Adding an id that no parent link names does not change the walk from any other id. */
  lemma {:induction false} ChainAfterAdd(parents: Parents, id: string, parent: string, cur: string, n: nat)
    requires id !in parents && cur != id
    requires forall k :: k in parents ==> parents[k] != id
    ensures Chain(parents[id := parent], cur, n) == Chain(parents, cur, n)
    decreases n
  {
    if n > 0 && cur in parents {
      ChainAfterAdd(parents, id, parent, parents[cur], n - 1);
    }
  }
}

=== FILE: history.dfy ===
/** Commit images and the ancestor walks over them. A commit is stored under its id as the
    image of the staging area plus a metadata file; the only link between commits is the
    `parent=` line of that file, read back with the same slicing as the HEAD line. */
module History {
  import opened Optional
  import opened Text
  import opened ReferenceRecord
  import opened References
  import opened Snapshots
  import opened Ancestry

  /** What `log_metadata` records. The parent is the HEAD read when the commit was made. */
  datatype Meta = Meta(parent: Option<string>, date: string, message: string)

  /** An image: the copied staging area and the metadata file beside it. */
  datatype Image = Image(tree: Snapshot, meta: Meta)

  /** `.wit/images`: commit id to image and metadata. */
  type Store = map<string, Image>

  /** The text of `images/<id>.txt`. */
  function MetadataText(m: Meta): string {
    "parent=" + Show(m.parent) + "\ndate=" + m.date + "\nmessage=" + m.message
  }

  /** What `get_parent_commit_id` returns for a root commit: "None" read with its newline. */
  const RootSentinel: string := "None\n"

  lemma MetadataFirstLine(m: Meta)
    ensures "parent=" <= FirstLine(MetadataText(m))
  {
    assert MetadataText(m) == "parent=" + (Show(m.parent) + "\ndate=" + m.date + "\nmessage=" + m.message);
    FirstLineKeepsPrefix("parent=", Show(m.parent) + "\ndate=" + m.date + "\nmessage=" + m.message);
  }

  /** `get_parent_commit_id` on an existing metadata file: the first line's text after `=`,
      cut to 40 characters. The first line always has an `=`, so this never fails. */
  function ReadParent(m: Meta): (r: string)
    ensures |r| <= 40
  {
    var text := MetadataText(m);
    MetadataFirstLine(m);
    assert FirstLine(text)[6] == '=';
    HeadCommitId(Some(text)).value
  }

  lemma ParentFirstLine(p: string, y: string)
    requires '\n' !in p
    ensures FirstLine("parent=" + p + "\n" + y) == "parent=" + p + "\n"
  {
    var x := "parent=" + p;
    assert '\n' !in x;
    ReadLinesCons(x, y);
  }

  lemma ParentLineFields(p: string)
    requires '=' !in p
    ensures Split("parent=" + p + "\n", "=") == ["parent", p + "\n"]
  {
    assert "parent=" + p + "\n" == "parent" + ['='] + (p + "\n");
    SplitCharAt("parent", '=', p + "\n");
    SplitCharNone(p + "\n", '=');
  }

  /** A first line `parent=<p>` with no `=` or newline in `p` reads back as `p` and its
      newline, cut to 40 characters. */
  lemma ParentLineRead(p: string, y: string)
    requires '=' !in p && '\n' !in p
    ensures HeadCommitId(Some("parent=" + p + "\n" + y)) == Some(Take(p + "\n", 40))
  {
    ParentFirstLine(p, y);
    ParentLineFields(p);
  }

  /** A parent written by `log_metadata` reads back as itself when it is a generated id, and
      as the sentinel for a root commit. */
  lemma ReadParentOf(m: Meta)
    requires m.parent.Some? ==> ValidId(m.parent.value)
    ensures ReadParent(m) == if m.parent.None? then RootSentinel else m.parent.value
  {
    var p := Show(m.parent);
    assert Clean(p) by {
      if m.parent.Some? {
        ValidIdClean(m.parent.value);
      }
    }
    var y := "date=" + m.date + "\nmessage=" + m.message;
    assert MetadataText(m) == "parent=" + p + "\n" + y;
    ParentLineRead(p, y);
    assert Take(p + "\n", 40) == if m.parent.None? then RootSentinel else p;
  }

  /** The parent link of every stored commit, as `get_parent_commit_id` reads it. */
  function ParentMap(store: Store): (r: Parents)
    ensures r.Keys == store.Keys
    ensures forall id :: id in store ==> r[id] == ReadParent(store[id].meta)
  {
    map id | id in store :: ReadParent(store[id].meta)
  }

  /** `get_ordered_list_of_commit_ids`: the ancestor list of HEAD. A missing HEAD prints as
      "None", which names no image, so the list is then empty. */
  function OrderedCommitIds(store: Store, refs: Option<string>): (r: seq<string>)
    ensures r != [] ==> r[0] == Show(HeadCommitId(refs))
  {
    Chain(ParentMap(store), Show(HeadCommitId(refs)), |store|)
  }

  /** Every id of the ordered list names a stored commit. */
  lemma OrderedCommitIdsStored(store: Store, refs: Option<string>)
    ensures forall k :: 0 <= k < |OrderedCommitIds(store, refs)| ==> OrderedCommitIds(store, refs)[k] in store
  {
    ChainMembers(ParentMap(store), Show(HeadCommitId(refs)), |store|);
  }

  // ----- stores built by commits -----

  /** The parent a commit records was stored before it: `rank` numbers the commits in the
      order they were made. */
  predicate ParentRanked(store: Store, rank: map<string, nat>, c: string)
    requires c in store && rank.Keys == store.Keys
  {
    var parent := store[c].meta.parent;
    parent.Some? ==> parent.value in store && rank[parent.value] < rank[c]
  }

  /** A store that commits built: every id a generated id, numbered below the store's size,
      with its parent made before it. */
  predicate GroundedBy(store: Store, rank: map<string, nat>) {
    && rank.Keys == store.Keys
    && forall c :: c in store ==> ValidId(c) && rank[c] < |store| && ParentRanked(store, rank, c)
  }

  /** The sentinel is never an id. */
  lemma SentinelNotStored(store: Store, rank: map<string, nat>)
    requires GroundedBy(store, rank)
    ensures RootSentinel !in store
  {
    assert |RootSentinel| == 5;
  }

  /** In a grounded store a commit's parent link reads back as its recorded parent, or as the
      sentinel, which names no commit, for a root. */
  lemma ParentLinkOf(store: Store, rank: map<string, nat>, c: string)
    requires GroundedBy(store, rank) && c in store
    ensures var m := store[c].meta;
            ParentMap(store)[c] == if m.parent.None? then RootSentinel else m.parent.value
    ensures ParentMap(store)[c] in store <==> store[c].meta.parent.Some?
    ensures ParentMap(store)[c] in store ==> rank[ParentMap(store)[c]] < rank[c]
  {
    var m := store[c].meta;
    assert ParentRanked(store, rank, c);
    if m.parent.None? {
      SentinelNotStored(store, rank);
    }
    ReadParentOf(m);
  }

  /** The creation order of a grounded store ranks its parent links. */
  lemma GroundedRanked(store: Store, rank: map<string, nat>)
    requires GroundedBy(store, rank)
    ensures Ranked(ParentMap(store), rank)
  {
    var parents := ParentMap(store);
    assert parents.Keys == store.Keys;
    assert |parents| == |store| by {
      assert |parents| == |parents.Keys| && |store| == |store.Keys|;
    }
    forall c | c in parents
      ensures rank[c] < |parents| && (parents[c] in parents ==> rank[parents[c]] < rank[c])
    {
      ParentLinkOf(store, rank, c);
    }
  }

  /** The ordered commit list of a grounded store is complete: a longer walk finds nothing
      more, and the list is empty exactly when HEAD names no stored commit. */
  lemma OrderedCommitIdsComplete(store: Store, rank: map<string, nat>, refs: Option<string>)
    requires GroundedBy(store, rank)
    ensures OrderedCommitIds(store, refs) == Chain(ParentMap(store), Show(HeadCommitId(refs)), |store| + 1)
    ensures OrderedCommitIds(store, refs) != [] <==> Show(HeadCommitId(refs)) in store
  {
    var head := Show(HeadCommitId(refs));
    assert Ranked(ParentMap(store), rank) by {
      GroundedRanked(store, rank);
    }
    ChainComplete(ParentMap(store), rank, head, |store|);
    if head in store {
      assert |store| > 0 by {
        assert head in store.Keys;
      }
    }
  }

  /** A non-empty ordered commit list of a grounded store ends at the root commit, whose
      parent link is the sentinel that the walk drops. */
  lemma OrderedCommitIdsEndAtRoot(store: Store, rank: map<string, nat>, refs: Option<string>)
    requires GroundedBy(store, rank)
    ensures var r := OrderedCommitIds(store, refs);
            r != [] ==> && r[|r| - 1] in store
                        && store[r[|r| - 1]].meta.parent.None?
                        && ParentMap(store)[r[|r| - 1]] == RootSentinel
  {
    var r := OrderedCommitIds(store, refs);
    assert Ranked(ParentMap(store), rank) by {
      GroundedRanked(store, rank);
    }
    ChainComplete(ParentMap(store), rank, Show(HeadCommitId(refs)), |store|);
    if r != [] {
      ParentLinkOf(store, rank, r[|r| - 1]);
    }
  }

  /** `get_prime_commit_id` with fuel for every stored commit. */
  function PrimeOf(store: Store, history: seq<string>, id: string): (r: Option<string>)
    ensures r.Some? ==> r.value in history
    ensures r.Some? ==> id in history || id in store
  {
    PrimeCommitId(ParentMap(store), history, id, |store|)
  }

  /** A prime commit found in HEAD's history is a stored commit, and so is the tip it was
      searched from. */
  lemma PrimeStored(store: Store, refs: Option<string>, tip: string)
    ensures var prime := PrimeOf(store, OrderedCommitIds(store, refs), tip);
            prime.Some? ==> tip in store && prime.value in store
  {
    OrderedCommitIdsStored(store, refs);
  }

  /** In a grounded store the prime commit search is complete, and it returns the first
      ancestor of the tip (the tip included) that the history holds. */
  lemma PrimeOfComplete(store: Store, rank: map<string, nat>, history: seq<string>, id: string)
    requires GroundedBy(store, rank)
    requires forall k :: 0 <= k < |history| ==> history[k] in store
    ensures PrimeOf(store, history, id) == PrimeCommitId(ParentMap(store), history, id, |store| + 1)
    ensures PrimeOf(store, history, id) == FirstIn(Chain(ParentMap(store), id, |store|), history)
  {
    var parents := ParentMap(store);
    GroundedRanked(store, rank);
    PrimeComplete(parents, rank, history, id, |store|);
    PrimeIsFirstOnChain(parents, history, id, |store|);
    ChainComplete(parents, rank, id, |store|);
  }

  /** Storing a commit adds one parent link. */
  lemma ParentMapAdd(store: Store, id: string, c: Image)
    ensures ParentMap(store[id := c]) == ParentMap(store)[id := ReadParent(c.meta)]
  {
    var a := ParentMap(store[id := c]);
    var b := ParentMap(store)[id := ReadParent(c.meta)];
    forall k
      ensures (k in a <==> k in b) && (k in a ==> a[k] == b[k])
    {
    }
    SameParents(a, b);
  }

  /** A new commit whose parent is already stored keeps the store grounded, numbered last. */
  lemma GroundedAdd(store: Store, rank: map<string, nat>, id: string, c: Image)
    requires GroundedBy(store, rank) && ValidId(id) && id !in store
    requires c.meta.parent.Some? ==> c.meta.parent.value in store
    ensures GroundedBy(store[id := c], rank[id := |store|])
  {
    var store' := store[id := c];
    var rank' := rank[id := |store|];
    assert |store'| == |store| + 1;
    forall k | k in store'
      ensures ValidId(k) && rank'[k] < |store'| && ParentRanked(store', rank', k)
    {
      if k != id {
        assert ParentRanked(store, rank, k);
      }
    }
  }

  /** Commits are never rewritten: after a new commit, the walk from any other id is the
      walk it was. */
  lemma ChainAfterCommit(store: Store, rank: map<string, nat>, id: string, c: Image, cur: string, n: nat)
    requires GroundedBy(store, rank) && ValidId(id) && id !in store && cur != id
    ensures Chain(ParentMap(store[id := c]), cur, n) == Chain(ParentMap(store), cur, n)
  {
    var parents := ParentMap(store);
    forall k | k in parents
      ensures parents[k] != id
    {
      ParentLinkOf(store, rank, k);
    }
    ParentMapAdd(store, id, c);
    ChainAfterAdd(parents, id, ReadParent(c.meta), cur, n);
  }

  /** The walk from a new commit is the new id followed by the walk from its recorded parent,
      read the way `log_metadata` wrote it. */
  lemma ChainFromNewCommit(store: Store, rank: map<string, nat>, id: string, image: Image)
    requires GroundedBy(store, rank) && ValidId(id) && id !in store
    requires image.meta.parent.Some? ==> image.meta.parent.value in store
    ensures Chain(ParentMap(store[id := image]), id, |store| + 1)
            == [id] + Chain(ParentMap(store), Show(image.meta.parent), |store|)
  {
    var n := |store|;
    var parents := ParentMap(store);
    var parents' := parents[id := ReadParent(image.meta)];
    ParentMapAdd(store, id, image);
    ChainCons(parents', id, n + 1);
    ReadParentOf(image.meta);
    if image.meta.parent.Some? {
      ChainAfterCommit(store, rank, id, image, image.meta.parent.value, n);
    } else {
      SentinelNotStored(store, rank);
      assert |RootSentinel| != |id|;
      assert "None" !in store by {
        assert |"None"| == 4;
      }
    }
  }

  /** Storing a commit whose parent is the old HEAD, and moving HEAD to it, puts its id in
      front of the ordered commit list. */
  lemma OrderedCommitIdsAfterCommit(store: Store, rank: map<string, nat>, id: string, image: Image,
                                    refs: Option<string>, refs': Option<string>)
    requires GroundedBy(store, rank) && ValidId(id) && id !in store
    requires image.meta.parent == HeadCommitId(refs) && HeadCommitId(refs') == Some(id)
    requires image.meta.parent.Some? ==> image.meta.parent.value in store
    ensures OrderedCommitIds(store[id := image], refs') == [id] + OrderedCommitIds(store, refs)
  {
    assert |store[id := image]| == |store| + 1;
    ChainFromNewCommit(store, rank, id, image);
  }
}

=== FILE: optional.dfy ===
/** Optional values. `None` stands for Python's `None`, and for a read that found nothing. */
module Optional {

  datatype Option<+T> = None | Some(value: T)

  /** How Python's f-string renders an optional string: `None` prints as "None". */
  function Show(o: Option<string>): (r: string)
    ensures o.Some? ==> r == o.value
    ensures o.None? ==> r == "None"
  {
    match o
    case None => "None"
    case Some(s) => s
  }
}

=== FILE: reference_laws.dfy ===
/** What wit.py's text slicing does to a reference file that is the serialisation of a
    record: each reader returns the record's field and each writer produces the serialisation
    of the updated record. */
module ReferenceLaws {
  import opened Optional
  import opened Text
  import opened ReferenceRecord
  import opened References

  // ----- helpers about the line format -----

  lemma JoinStartsWith(parts: seq<string>, sep: string)
    requires parts != []
    ensures parts[0] <= Join(parts, sep)
  {
  }

  lemma {:induction false} JoinAppend(parts: seq<string>, q: string, sep: string)
    requires parts != []
    ensures Join(parts + [q], sep) == Join(parts, sep) + sep + q
    decreases |parts|
  {
    if |parts| > 1 {
      assert (parts + [q])[1..] == parts[1..] + [q];
      JoinAppend(parts[1..], q, sep);
    }
  }

  lemma {:induction false} BranchLinesAppend(bs: seq<(string, string)>, b: (string, string))
    ensures BranchLines(bs + [b]) == BranchLines(bs) + BranchLine(b)
    decreases |bs|
  {
    if bs == [] {
      assert bs + [b] == [b];
    } else {
      assert (bs + [b])[1..] == bs[1..] + [b];
      BranchLinesAppend(bs[1..], b);
    }
  }

  /** The HEAD line without its newline. */
  function HeadText(r: Refs): string {
    "HEAD=" + Join([r.head] + r.mergeNotes, ",")
  }

  lemma HeadLineSplit(r: Refs)
    requires WellFormed(r)
    ensures '\n' !in HeadText(r)
    ensures HeadLine(r) == HeadText(r) + "\n"
    ensures Split(HeadLine(r), "=") == ["HEAD", Join([r.head] + r.mergeNotes, ",") + "\n"]
  {
    var ids := [r.head] + r.mergeNotes;
    var j := Join(ids, ",");
    assert forall k :: 0 <= k < |ids| ==> Clean(ids[k]);
    assert '\n' !in HeadText(r) by {
      NotInJoin(ids, ",", '\n');
    }
    assert Split(HeadLine(r), "=") == ["HEAD", j + "\n"] by {
      NotInJoin(ids, ",", '=');
      assert HeadLine(r) == "HEAD" + ['='] + (j + "\n");
      SplitCharAt("HEAD", '=', j + "\n");
      SplitCharNone(j + "\n", '=');
    }
  }

  lemma BranchLineSplit(b: (string, string))
    requires ValidName(b.0) && ValidName(b.1)
    ensures Split(BranchLine(b), "=") == [b.0, b.1 + "\n"]
  {
    assert BranchLine(b) == b.0 + ['='] + (b.1 + "\n");
    SplitCharAt(b.0, '=', b.1 + "\n");
    SplitCharNone(b.1 + "\n", '=');
  }

  lemma FirstLineOfSerialized(r: Refs)
    requires WellFormed(r)
    ensures FirstLine(Serialize(r)) == HeadLine(r)
  {
    SerializedLines(r);
  }

  // ----- readers -----

  /** `get_head_commit_id` on a reference file returns its HEAD id, merge notes or not,
      as long as the id has the generated width of 40 characters. */
  lemma HeadOfSerialized(r: Refs)
    requires WellFormed(r) && |r.head| == 40
    ensures HeadCommitId(Some(Serialize(r))) == Some(r.head)
  {
    FirstLineOfSerialized(r);
    HeadLineSplit(r);
    var field := Join([r.head] + r.mergeNotes, ",") + "\n";
    assert Split(FirstLine(Serialize(r)), "=")[1] == field;
    assert r.head <= field by {
      JoinStartsWith([r.head] + r.mergeNotes, ",");
    }
    assert Take(field, 40) == r.head;
  }

  lemma NameOfBranchLine(b: (string, string))
    requires ValidName(b.0) && ValidName(b.1)
    ensures FirstField(BranchLine(b), "=") == b.0
  {
    BranchLineSplit(b);
  }

  lemma BranchesOfLines(text: string, head: string, rest: seq<string>)
    requires ReadLines(text) == [head] + rest
    ensures |Branches(text)| == |rest|
    ensures forall k :: 0 <= k < |rest| ==> Branches(text)[k] == FirstField(rest[k], "=")
  {
    var lines := ReadLines(text);
    forall k | 0 <= k < |rest|
      ensures Branches(text)[k] == FirstField(rest[k], "=")
    {
      assert lines[k + 1] == rest[k];
    }
  }

  /** `get_branches` lists the branch names in file order. */
  lemma BranchesOfSerialized(r: Refs)
    requires WellFormed(r)
    ensures Branches(Serialize(r)) == Names(r.branches)
  {
    var lines := LineList(r.branches);
    var got := Branches(Serialize(r));
    assert |got| == |lines| && forall k :: 0 <= k < |lines| ==> got[k] == FirstField(lines[k], "=") by {
      SerializedLines(r);
      BranchesOfLines(Serialize(r), HeadLine(r), lines);
    }
    forall k | 0 <= k < |r.branches|
      ensures got[k] == Names(r.branches)[k]
    {
      NameOfBranchLine(r.branches[k]);
    }
  }

  /** A name that ends where `name=` would need an `=` is `name` itself. */
  lemma NameBeforeEquals(name: string, n: string, w: string)
    requires '=' !in name && '=' !in n
    requires |name| + 1 <= |n + "=" + w| && (n + "=" + w)[..|name| + 1] == name + "="
    ensures name == n
  {
    var t := n + "=" + w;
    var p := name + "=";
    assert t[|name|] == p[|name|] == '=';
    assert forall k :: 0 <= k < |n| ==> t[k] == n[k];
    assert |n| <= |name|;
    assert t[|n|] == '=';
    assert p[|n|] == '=';
    assert forall k :: 0 <= k < |name| ==> p[k] == name[k];
    assert |n| == |name|;
    assert n == t[..|n|] == p[..|name|] == name;
  }

  /** With no branch line left, the search for "\n<name>=" finds nothing. */
  lemma BranchIdNoLines(pre: string, name: string)
    requires forall j: nat :: j < |pre| ==> !OccursAt(pre + "\n", "\n" + name + "=", j)
    ensures BranchId(Some(pre + "\n"), name) == None
  {
    var sep := "\n" + name + "=";
    forall j: nat
      ensures !OccursAt(pre + "\n", sep, j)
    {
    }
    FindNone(pre + "\n", sep);
  }

  /** The search stops at a line named `name` and returns that line's id. */
  lemma BranchIdAtLine(pre: string, b: (string, string), rest: string)
    requires ValidName(b.0) && ValidName(b.1)
    requires forall j: nat :: j < |pre| ==> !OccursAt(pre + "\n" + BranchLine(b) + rest, "\n" + b.0 + "=", j)
    ensures BranchId(Some(pre + "\n" + BranchLine(b) + rest), b.0) == Some(b.1)
  {
    var sep := "\n" + b.0 + "=";
    var text := pre + "\n" + BranchLine(b) + rest;
    var after := b.1 + "\n" + rest;
    assert text == pre + sep + after;
    assert Split(text, sep)[1] == FirstField(after, sep) by {
      assert text[|pre|..|pre| + |sep|] == sep;
      FindIs(text, sep, |pre|);
      SplitAt(text, sep, |pre|);
      assert text[|pre| + |sep|..] == after;
    }
    FirstFieldBeforeNewline(b.1, rest, sep);
  }

  /** A line named otherwise holds no occurrence of "\n<name>=". */
  lemma NoMatchInLine(pre: string, b: (string, string), rest: string, name: string)
    requires ValidName(b.0) && ValidName(b.1) && ValidName(name) && b.0 != name
    requires forall j: nat :: j < |pre| ==> !OccursAt(pre + "\n" + BranchLine(b) + rest, "\n" + name + "=", j)
    ensures forall j: nat :: j < |pre| + 1 + |b.0| + 1 + |b.1| ==>
              !OccursAt(pre + "\n" + BranchLine(b) + rest, "\n" + name + "=", j)
  {
    var sep := "\n" + name + "=";
    var text := pre + "\n" + BranchLine(b) + rest;
    var line := b.0 + "=" + b.1;
    forall j: nat | |pre| <= j < |pre| + 1 + |line|
      ensures !OccursAt(text, sep, j)
    {
      if j == |pre| {
        if OccursAt(text, sep, j) {
          var t := b.0 + "=" + (b.1 + "\n" + rest);
          assert text == pre + "\n" + t;
          assert text[|pre| + 1..|pre| + |sep|] == t[..|name| + 1];
          assert t[..|name| + 1] == name + "=";
          NameBeforeEquals(name, b.0, b.1 + "\n" + rest);
        }
      } else {
        assert text[j] == line[j - |pre| - 1];
        NotOccursAtIfStartDiffers(text, sep, j);
      }
    }
  }

  /** The search for "\n<name>=" that starts right after `pre` finds the first line named
      `name`, as long as no occurrence starts inside `pre`. */
  lemma {:induction false} BranchIdAfter(pre: string, bs: seq<(string, string)>, name: string)
    requires forall k :: 0 <= k < |bs| ==> ValidName(bs[k].0) && ValidName(bs[k].1)
    requires ValidName(name)
    requires forall j: nat :: j < |pre| ==> !OccursAt(pre + "\n" + BranchLines(bs), "\n" + name + "=", j)
    ensures BranchId(Some(pre + "\n" + BranchLines(bs)), name) == Lookup(bs, name)
    decreases |bs|
  {
    if bs == [] {
      assert pre + "\n" + BranchLines(bs) == pre + "\n";
      BranchIdNoLines(pre, name);
    } else {
      var b := bs[0];
      var rest := BranchLines(bs[1..]);
      assert pre + "\n" + BranchLines(bs) == pre + "\n" + BranchLine(b) + rest;
      if b.0 == name {
        BranchIdAtLine(pre, b, rest);
      } else {
        var pre' := pre + "\n" + b.0 + "=" + b.1;
        assert pre + "\n" + BranchLine(b) + rest == pre' + "\n" + rest;
        NoMatchInLine(pre, b, rest, name);
        BranchIdAfter(pre', bs[1..], name);
      }
    }
  }

  /** `get_branch_id` returns the id on the first line named `name`, and fails (None) for a
      name that has no line. */
  lemma BranchIdOfSerialized(r: Refs, name: string)
    requires WellFormed(r) && ValidName(name)
    ensures BranchId(Some(Serialize(r)), name) == Lookup(r.branches, name)
  {
    HeadLineSplit(r);
    var pre := HeadText(r);
    assert Serialize(r) == pre + "\n" + BranchLines(r.branches);
    forall j: nat | j < |pre|
      ensures !OccursAt(Serialize(r), "\n" + name + "=", j)
    {
      if OccursAt(Serialize(r), "\n" + name + "=", j) {
        OccursAtStart(Serialize(r), "\n" + name + "=", j);
      }
    }
    BranchIdAfter(pre, r.branches, name);
  }

  // ----- writers -----

  lemma RewriteBranchLine(b: (string, string), head: string, id: string, active: string)
    requires ValidName(b.0) && ValidName(b.1)
    ensures RewriteLine(BranchLine(b), Some(head), id, active)
              == Some(BranchLine(if b == (active, head) then (active, id) else b))
  {
    BranchLineSplit(b);
    assert DropLast(b.1 + "\n") == b.1;
  }

  lemma {:induction false} RewriteBranchLines(bs: seq<(string, string)>, head: string, id: string, active: string)
    requires forall k :: 0 <= k < |bs| ==> ValidName(bs[k].0) && ValidName(bs[k].1)
    ensures RewriteLines(LineList(bs), Some(head), id, active) == Some(BranchLines(MoveBranch(bs, active, head, id)))
    decreases |bs|
  {
    if bs != [] {
      RewriteBranchLine(bs[0], head, id, active);
      LineListCons(bs);
      assert MoveBranch(bs, active, head, id)[1..] == MoveBranch(bs[1..], active, head, id);
      RewriteBranchLines(bs[1..], head, id, active);
    }
  }

  /** `gen_new_text` on a reference file is `Advance`: HEAD moves to the new id, and the
      active branch's line moves with it only if it still held the previous HEAD. */
  lemma GenNewTextOfSerialized(r: Refs, id: string, active: string)
    requires WellFormed(r) && |r.head| == 40
    ensures GenNewText(Serialize(r), id, active) == Some(Serialize(Advance(r, id, active)))
  {
    var text := Serialize(r);
    var lines := ReadLines(text);
    assert lines != [] && lines[1..] == LineList(r.branches) by {
      SerializedLines(r);
    }
    assert HeadCommitId(Some(text)) == Some(r.head) by {
      HeadOfSerialized(r);
    }
    var moved := MoveBranch(r.branches, active, r.head, id);
    assert RewriteLines(lines[1..], Some(r.head), id, active) == Some(BranchLines(moved)) by {
      RewriteBranchLines(r.branches, r.head, id, active);
    }
    assert GenNewText(text, id, active) == Some("HEAD=" + id + "\n" + BranchLines(moved));
    var adv := Advance(r, id, active);
    assert adv.branches == moved;
    assert [adv.head] + adv.mergeNotes == [id];
    assert HeadLine(adv) == "HEAD=" + id + "\n";
    assert Serialize(adv) == "HEAD=" + id + "\n" + BranchLines(moved);
  }

  /** With no reference file, a commit writes exactly `HEAD=<id>` and `master=<id>`. */
  lemma FirstCommitReferences(id: string, active: string)
    ensures LogReferences(None, id, active) == Some(Serialize(Initial(id)))
  {
    var b := ("master", id);
    assert Join([id] + [], ",") == id;
    assert HeadLine(Initial(id)) == "HEAD=" + id + "\n";
    assert BranchLines([b]) == BranchLine(b) + BranchLines([]);
    assert Serialize(Initial(id)) == "HEAD=" + id + "\n" + ("master" + "=" + id + "\n");
    assert "\nmaster=" == "\n" + "master" + "=";
    assert "HEAD=" + id + "\nmaster=" + id + "\n" == "HEAD=" + id + "\n" + ("master" + "=" + id + "\n");
  }

  lemma BranchListed(r: Refs, name: string)
    requires WellFormed(r) && name in Names(r.branches)
    ensures Branch(Serialize(r), name) == Serialize(CreateBranch(r, name))
  {
    BranchesOfSerialized(r);
    assert CreateBranch(r, name) == r;
  }

  lemma LabelOfSerialized(r: Refs, name: string)
    requires WellFormed(r) && |r.head| == 40 && name !in Names(r.branches)
    ensures Branch(Serialize(r), name) == Serialize(r) + BranchLine((name, r.head))
  {
    var text := Serialize(r);
    assert name !in Branches(text) by {
      BranchesOfSerialized(r);
    }
    assert Show(HeadCommitId(Some(text))) == r.head by {
      HeadOfSerialized(r);
    }
  }

  lemma SerializeAppended(r: Refs, b: (string, string))
    ensures Serialize(r.(branches := r.branches + [b])) == Serialize(r) + BranchLine(b)
  {
    BranchLinesAppend(r.branches, b);
  }

  /** `branch` on a reference file is `CreateBranch`: unchanged for a listed name, one line
      `name=<HEAD>` appended otherwise. */
  lemma BranchOfSerialized(r: Refs, name: string)
    requires WellFormed(r) && |r.head| == 40
    ensures Branch(Serialize(r), name) == Serialize(CreateBranch(r, name))
  {
    if name in Names(r.branches) {
      BranchListed(r, name);
    } else {
      LabelOfSerialized(r, name);
      SerializeAppended(r, (name, r.head));
      assert CreateBranch(r, name) == r.(branches := r.branches + [(name, r.head)]);
    }
  }

  /** The HEAD line with its newline replaced by `,<branch id>` and a newline is the HEAD
      line of the record with one more merge note. */
  lemma MergeNoteOnHeadLine(r: Refs, branchId: string)
    requires WellFormed(r)
    ensures ReplaceAll(HeadLine(r), '\n', "," + branchId + "\n") == HeadLine(RecordMerge(r, branchId))
  {
    var rep := "," + branchId + "\n";
    assert ReplaceAll(HeadLine(r), '\n', rep) == HeadText(r) + rep by {
      HeadLineSplit(r);
      ReplaceAllAtEnd(HeadText(r), '\n', rep);
    }
    HeadLineWithNote(r, branchId);
  }

  lemma HeadLineWithNote(r: Refs, branchId: string)
    ensures HeadLine(RecordMerge(r, branchId)) == HeadText(r) + "," + branchId + "\n"
  {
    var ids := [r.head] + r.mergeNotes;
    assert [r.head] + RecordMerge(r, branchId).mergeNotes == ids + [branchId];
    JoinAppend(ids, branchId, ",");
  }

  /** `update_references` on a reference file is `RecordMerge`: only the HEAD line changes,
      by gaining `,<branch id>`; the branch lines are untouched. */
  lemma UpdateReferencesOfSerialized(r: Refs, branchId: string)
    requires WellFormed(r)
    ensures UpdateReferences(Serialize(r), branchId) == Some(Serialize(RecordMerge(r, branchId)))
  {
    var text := Serialize(r);
    assert FirstLine(text) == HeadLine(r) by {
      FirstLineOfSerialized(r);
    }
    assert text[|HeadLine(r)|..] == BranchLines(r.branches);
    MergeNoteOnHeadLine(r, branchId);
  }

  /** After a merge note is added, `get_head_commit_id` still returns the same HEAD, because
      it keeps only the first 40 characters. */
  lemma UpdateReferencesKeepsHead(r: Refs, branchId: string)
    requires Valid(r) && ValidId(branchId)
    ensures UpdateReferences(Serialize(r), branchId).Some?
    ensures HeadCommitId(Some(UpdateReferences(Serialize(r), branchId).value)) == HeadCommitId(Some(Serialize(r)))
    ensures HeadCommitId(Some(Serialize(r))) == Some(r.head)
  {
    ValidIsWellFormed(r);
    RecordMergeValid(r, branchId);
    ValidIsWellFormed(RecordMerge(r, branchId));
    UpdateReferencesOfSerialized(r, branchId);
    HeadOfSerialized(r);
    HeadOfSerialized(RecordMerge(r, branchId));
  }
}

=== FILE: reference_record.dfy ===
/** The reference file `.wit/references.txt` as a record, and what each kind of update
    does to it.

    The file has a first line `HEAD=<id>[,<merged-id>...]` and then one line `<name>=<id>`
    per branch, in creation order. `Serialize` writes a record in that format and `Parse`
    reads it back. */
module ReferenceRecord {
  import opened Optional
  import opened Text

  datatype Refs = Refs(head: string, mergeNotes: seq<string>, branches: seq<(string, string)>)

  // ----- the line format -----

  function HeadLine(r: Refs): string {
    "HEAD=" + Join([r.head] + r.mergeNotes, ",") + "\n"
  }

  function BranchLine(b: (string, string)): string {
    b.0 + "=" + b.1 + "\n"
  }

  function BranchLines(bs: seq<(string, string)>): string {
    if bs == [] then "" else BranchLine(bs[0]) + BranchLines(bs[1..])
  }

  function Serialize(r: Refs): string {
    HeadLine(r) + BranchLines(r.branches)
  }

  function ParseBranchLine(line: string): Option<(string, string)> {
    if line == "" || line[|line| - 1] != '\n' then None
    else
      var fields := Split(line[..|line| - 1], "=");
      if |fields| != 2 then None else Some((fields[0], fields[1]))
  }

  function ParseBranchLines(lines: seq<string>): (r: Option<seq<(string, string)>>)
    ensures r.Some? ==> |r.value| == |lines|
  {
    if lines == [] then Some([])
    else match (ParseBranchLine(lines[0]), ParseBranchLines(lines[1..]))
      case (Some(b), Some(bs)) => Some([b] + bs)
      case _ => None
  }

  /** Reads the HEAD line into the HEAD id and the merge notes. */
  function ParseHeadLine(line: string): Option<(string, seq<string>)> {
    if line == "" || line[|line| - 1] != '\n' then None
    else
      var fields := Split(line[..|line| - 1], "=");
      if |fields| != 2 || fields[0] != "HEAD" then None
      else
        var ids := Split(fields[1], ",");
        Some((ids[0], ids[1..]))
  }

  /** Reads a reference file; `None` unless every line is newline-terminated, the first line is
      `HEAD=...` and every other line has exactly one `=`. */
  function Parse(text: string): Option<Refs> {
    var lines := ReadLines(text);
    if lines == [] then None
    else match (ParseHeadLine(lines[0]), ParseBranchLines(lines[1..]))
      case (Some(h), Some(bs)) => Some(Refs(h.0, h.1, bs))
      case _ => None
  }

  // ----- well-formedness -----

  /** A commit id as the commit command generates it: 40 lower-case hex digits. */
  predicate ValidId(id: string) {
    |id| == 40 && forall k :: 0 <= k < |id| ==> id[k] in "0123456789abcdef"
  }

  /** A branch name that fits on one branch line. A carriage return is excluded too: reading in
      text mode would turn it into a line break. */
  predicate ValidName(name: string) {
    '=' !in name && '\n' !in name && '\r' !in name
  }

  /** A field of the HEAD line: no separator of the format inside it. */
  predicate Clean(s: string) {
    '=' !in s && '\n' !in s && '\r' !in s && ',' !in s
  }

  function Names(bs: seq<(string, string)>): (r: seq<string>)
    ensures |r| == |bs|
    ensures forall k :: 0 <= k < |bs| ==> r[k] == bs[k].0
  {
    seq(|bs|, k requires 0 <= k < |bs| => bs[k].0)
  }

  /** Every field can be written and read back unambiguously. */
  predicate WellFormed(r: Refs) {
    && Clean(r.head)
    && (forall k :: 0 <= k < |r.mergeNotes| ==> Clean(r.mergeNotes[k]))
    && (forall k :: 0 <= k < |r.branches| ==> ValidName(r.branches[k].0) && ValidName(r.branches[k].1))
  }

  /** What the commands maintain: ids are generated ids and branch names are unique. */
  predicate Valid(r: Refs) {
    && ValidId(r.head)
    && (forall k :: 0 <= k < |r.mergeNotes| ==> ValidId(r.mergeNotes[k]))
    && (forall k :: 0 <= k < |r.branches| ==> ValidName(r.branches[k].0) && ValidId(r.branches[k].1))
    && (forall j, k :: 0 <= j < k < |r.branches| ==> r.branches[j].0 != r.branches[k].0)
  }

  lemma ValidIdClean(id: string)
    requires ValidId(id)
    ensures Clean(id)
  {
    forall k | 0 <= k < |id|
      ensures id[k] != '=' && id[k] != '\n' && id[k] != '\r' && id[k] != ','
    {
      assert id[k] in "0123456789abcdef";
    }
  }

  lemma ValidIsWellFormed(r: Refs)
    requires Valid(r)
    ensures WellFormed(r)
  {
    ValidIdClean(r.head);
    forall k | 0 <= k < |r.mergeNotes|
      ensures Clean(r.mergeNotes[k])
    {
      ValidIdClean(r.mergeNotes[k]);
    }
    forall k | 0 <= k < |r.branches|
      ensures ValidName(r.branches[k].1)
    {
      ValidIdClean(r.branches[k].1);
    }
  }

  // ----- lookups -----

  /** The id of the first branch line named `name`. */
  function Lookup(bs: seq<(string, string)>, name: string): (r: Option<string>)
    ensures r.None? <==> name !in Names(bs)
    ensures r.Some? ==> exists k :: 0 <= k < |bs| && bs[k] == (name, r.value)
                                    && forall j :: 0 <= j < k ==> bs[j].0 != name
  {
    if bs == [] then None
    else if bs[0].0 == name then Some(bs[0].1)
    else
      assert Names(bs) == [bs[0].0] + Names(bs[1..]);
      Lookup(bs[1..], name)
  }

  lemma {:induction false} LookupAppend(bs: seq<(string, string)>, b: (string, string), name: string)
    ensures Lookup(bs + [b], name) == if name in Names(bs) then Lookup(bs, name)
                                      else if b.0 == name then Some(b.1) else None
    decreases |bs|
  {
    if bs == [] {
      assert bs + [b] == [b];
    } else {
      assert (bs + [b])[1..] == bs[1..] + [b];
      assert Names(bs) == [bs[0].0] + Names(bs[1..]);
      LookupAppend(bs[1..], b, name);
    }
  }

  // ----- the updates -----

  /** Moves every line `(active, from)` to `(active, to)` and keeps every other line. */
  function MoveBranch(bs: seq<(string, string)>, active: string, from: string, to: string)
    : (r: seq<(string, string)>)
    ensures |r| == |bs|
    ensures forall k :: 0 <= k < |bs| ==>
              r[k] == if bs[k] == (active, from) then (active, to) else bs[k]
  {
    if bs == [] then []
    else [if bs[0] == (active, from) then (active, to) else bs[0]] + MoveBranch(bs[1..], active, from, to)
  }

  /** A commit's rewrite of the references: HEAD becomes `id`, the merge notes are dropped,
      and the active branch follows only if it still pointed at the previous HEAD. */
  function Advance(r: Refs, id: string, active: string): (r': Refs)
    ensures r'.head == id && r'.mergeNotes == []
    ensures Names(r'.branches) == Names(r.branches)
  {
    Refs(id, [], MoveBranch(r.branches, active, r.head, id))
  }

  /** The reference file the first commit creates. */
  function Initial(id: string): (r: Refs)
    ensures r.head == id && Lookup(r.branches, "master") == Some(id) && Names(r.branches) == ["master"]
  {
    Refs(id, [], [("master", id)])
  }

  /** `branch name`: a new name is bound to HEAD on a line at the end; a listed name is left alone. */
  function CreateBranch(r: Refs, name: string): (r': Refs)
    ensures r'.head == r.head && r'.mergeNotes == r.mergeNotes
    ensures name in Names(r.branches) ==> r' == r
    ensures name !in Names(r.branches) ==> Names(r'.branches) == Names(r.branches) + [name]
    ensures name !in Names(r.branches) ==> r'.branches[..|r.branches|] == r.branches
    ensures Lookup(r'.branches, name) == if name in Names(r.branches) then Lookup(r.branches, name) else Some(r.head)
  {
    if name in Names(r.branches) then r
    else
      var bs := r.branches + [(name, r.head)];
      LookupAppend(r.branches, (name, r.head), name);
      assert Names(bs) == Names(r.branches) + [name];
      assert bs[..|r.branches|] == r.branches;
      r.(branches := bs)
  }

  /** A merge's note: the merged branch's id is added at the end of the HEAD line. */
  function RecordMerge(r: Refs, branchId: string): (r': Refs)
    ensures r'.head == r.head && r'.branches == r.branches
    ensures |r'.mergeNotes| == |r.mergeNotes| + 1
    ensures r'.mergeNotes[..|r.mergeNotes|] == r.mergeNotes && r'.mergeNotes[|r.mergeNotes|] == branchId
  {
    r.(mergeNotes := r.mergeNotes + [branchId])
  }

  // ----- properties of the updates -----

  /** The compare-and-swap: the active branch moves to the new id exactly when its first line
      pointed at the previous HEAD, and every other branch keeps its id. */
  lemma {:induction false} AdvanceMovesActiveOnlyFromHead(r: Refs, id: string, active: string, name: string)
    ensures Lookup(Advance(r, id, active).branches, name) ==
              if name == active && Lookup(r.branches, name) == Some(r.head) then Some(id)
              else Lookup(r.branches, name)
  {
    MoveLookup(r.branches, active, r.head, id, name);
  }

  lemma {:induction false} MoveLookup(bs: seq<(string, string)>, active: string, from: string, to: string, name: string)
    ensures Lookup(MoveBranch(bs, active, from, to), name) ==
              if name == active && Lookup(bs, name) == Some(from) then Some(to) else Lookup(bs, name)
    decreases |bs|
  {
    if bs != [] {
      var ms := MoveBranch(bs, active, from, to);
      assert ms[1..] == MoveBranch(bs[1..], active, from, to);
      assert ms[0].0 == bs[0].0;
      MoveLookup(bs[1..], active, from, to, name);
    }
  }

  /** Creating a branch twice is the same as creating it once. */
  lemma CreateBranchIdempotent(r: Refs, name: string)
    ensures CreateBranch(CreateBranch(r, name), name) == CreateBranch(r, name)
  {
  }

  /** Creating a branch leaves every other branch's id alone. */
  lemma CreateBranchKeepsOthers(r: Refs, name: string, other: string)
    requires other != name
    ensures Lookup(CreateBranch(r, name).branches, other) == Lookup(r.branches, other)
  {
    if name !in Names(r.branches) {
      LookupAppend(r.branches, (name, r.head), other);
    }
  }

  lemma AdvanceValid(r: Refs, id: string, active: string)
    requires Valid(r) && ValidId(id)
    ensures Valid(Advance(r, id, active))
  {
  }

  lemma AppendedEntriesValid(bs: seq<(string, string)>, b: (string, string))
    requires forall k :: 0 <= k < |bs| ==> ValidName(bs[k].0) && ValidId(bs[k].1)
    requires ValidName(b.0) && ValidId(b.1)
    ensures forall k :: 0 <= k < |bs + [b]| ==> ValidName((bs + [b])[k].0) && ValidId((bs + [b])[k].1)
  {
    forall k | 0 <= k < |bs + [b]|
      ensures ValidName((bs + [b])[k].0) && ValidId((bs + [b])[k].1)
    {
      if k < |bs| {
        assert (bs + [b])[k] == bs[k];
      }
    }
  }

  lemma AppendedNamesUnique(bs: seq<(string, string)>, b: (string, string))
    requires forall j, k :: 0 <= j < k < |bs| ==> bs[j].0 != bs[k].0
    requires b.0 !in Names(bs)
    ensures forall j, k :: 0 <= j < k < |bs + [b]| ==> (bs + [b])[j].0 != (bs + [b])[k].0
  {
    forall j, k | 0 <= j < k < |bs + [b]|
      ensures (bs + [b])[j].0 != (bs + [b])[k].0
    {
      assert (bs + [b])[j] == bs[j];
      if k == |bs| {
        assert bs[j].0 == Names(bs)[j];
      } else {
        assert (bs + [b])[k] == bs[k];
      }
    }
  }

  lemma CreateBranchValid(r: Refs, name: string)
    requires Valid(r) && ValidName(name)
    ensures Valid(CreateBranch(r, name))
  {
    if name !in Names(r.branches) {
      var b := (name, r.head);
      assert CreateBranch(r, name) == r.(branches := r.branches + [b]);
      AppendedEntriesValid(r.branches, b);
      AppendedNamesUnique(r.branches, b);
    }
  }

  lemma RecordMergeValid(r: Refs, branchId: string)
    requires Valid(r) && ValidId(branchId)
    ensures Valid(RecordMerge(r, branchId))
  {
    var notes := RecordMerge(r, branchId).mergeNotes;
    forall k | 0 <= k < |notes|
      ensures ValidId(notes[k])
    {
      if k < |r.mergeNotes| {
        assert notes[k] == r.mergeNotes[k];
      }
    }
  }

  // ----- the format round-trips -----

  function LineList(bs: seq<(string, string)>): (r: seq<string>)
    ensures |r| == |bs|
    ensures forall k :: 0 <= k < |bs| ==> r[k] == BranchLine(bs[k])
  {
    seq(|bs|, k requires 0 <= k < |bs| => BranchLine(bs[k]))
  }

  lemma {:induction false} NotInJoin(parts: seq<string>, sep: string, c: char)
    requires parts != [] && c !in sep
    requires forall k :: 0 <= k < |parts| ==> c !in parts[k]
    ensures c !in Join(parts, sep)
    decreases |parts|
  {
    if |parts| > 1 {
      NotInJoin(parts[1..], sep, c);
    }
  }

  lemma ParseBranchLineOf(b: (string, string))
    requires ValidName(b.0) && ValidName(b.1)
    ensures ParseBranchLine(BranchLine(b)) == Some(b)
  {
    var line := BranchLine(b);
    assert line[..|line| - 1] == b.0 + ['='] + b.1;
    SplitCharAt(b.0, '=', b.1);
    SplitCharNone(b.1, '=');
  }

  lemma ReadBranchLine(b: (string, string), rest: string)
    requires ValidName(b.0) && ValidName(b.1)
    ensures ReadLines(BranchLine(b) + rest) == [BranchLine(b)] + ReadLines(rest)
  {
    var x := b.0 + "=" + b.1;
    assert '\n' !in x;
    assert BranchLine(b) + rest == x + "\n" + rest;
    ReadLinesCons(x, rest);
  }

  lemma LineListCons(bs: seq<(string, string)>)
    requires bs != []
    ensures LineList(bs) == [BranchLine(bs[0])] + LineList(bs[1..])
  {
  }

  lemma {:induction false} ReadBranchLines(bs: seq<(string, string)>)
    requires forall k :: 0 <= k < |bs| ==> ValidName(bs[k].0) && ValidName(bs[k].1)
    ensures ReadLines(BranchLines(bs)) == LineList(bs)
    decreases |bs|
  {
    if bs != [] {
      assert BranchLines(bs) == BranchLine(bs[0]) + BranchLines(bs[1..]);
      ReadBranchLine(bs[0], BranchLines(bs[1..]));
      ReadBranchLines(bs[1..]);
      LineListCons(bs);
    }
  }

  lemma {:induction false} ParseLineList(bs: seq<(string, string)>)
    requires forall k :: 0 <= k < |bs| ==> ValidName(bs[k].0) && ValidName(bs[k].1)
    ensures ParseBranchLines(LineList(bs)) == Some(bs)
    decreases |bs|
  {
    if bs != [] {
      var ls := LineList(bs);
      assert ls[1..] == LineList(bs[1..]);
      ParseBranchLineOf(bs[0]);
      ParseLineList(bs[1..]);
      assert bs == [bs[0]] + bs[1..];
    }
  }

  /** The fields of the HEAD line, split back apart. */
  lemma HeadLineFields(r: Refs)
    requires WellFormed(r)
    ensures '\n' !in "HEAD=" + Join([r.head] + r.mergeNotes, ",")
    ensures Split("HEAD=" + Join([r.head] + r.mergeNotes, ","), "=") == ["HEAD", Join([r.head] + r.mergeNotes, ",")]
    ensures Split(Join([r.head] + r.mergeNotes, ","), ",") == [r.head] + r.mergeNotes
  {
    var ids := [r.head] + r.mergeNotes;
    var j := Join(ids, ",");
    assert forall k :: 0 <= k < |ids| ==> Clean(ids[k]);
    NotInJoin(ids, ",", '\n');
    NotInJoin(ids, ",", '=');
    assert "HEAD=" + j == "HEAD" + ['='] + j;
    SplitCharAt("HEAD", '=', j);
    SplitCharNone(j, '=');
    SplitJoinChar(ids, ',');
  }

  lemma ParseHeadLineOf(r: Refs)
    requires WellFormed(r)
    ensures ParseHeadLine(HeadLine(r)) == Some((r.head, r.mergeNotes))
  {
    var j := Join([r.head] + r.mergeNotes, ",");
    var first := HeadLine(r);
    HeadLineFields(r);
    assert first[..|first| - 1] == "HEAD=" + j;
  }

  lemma SerializedLines(r: Refs)
    requires WellFormed(r)
    ensures ReadLines(Serialize(r)) == [HeadLine(r)] + LineList(r.branches)
  {
    var x := "HEAD=" + Join([r.head] + r.mergeNotes, ",");
    HeadLineFields(r);
    assert Serialize(r) == x + "\n" + BranchLines(r.branches);
    ReadLinesCons(x, BranchLines(r.branches));
    ReadBranchLines(r.branches);
  }

  /** Every well-formed record reads back as itself. */
  lemma ParseSerialize(r: Refs)
    requires WellFormed(r)
    ensures Parse(Serialize(r)) == Some(r)
  {
    SerializedLines(r);
    var lines := ReadLines(Serialize(r));
    assert lines[0] == HeadLine(r) && lines[1..] == LineList(r.branches);
    ParseHeadLineOf(r);
    ParseLineList(r.branches);
  }

  lemma {:induction false} BranchLinesOfParsed(lines: seq<string>, bs: seq<(string, string)>)
    requires ParseBranchLines(lines) == Some(bs)
    ensures BranchLines(bs) == Concat(lines)
    decreases |lines|
  {
    if lines != [] {
      var line := lines[0];
      var b := ParseBranchLine(line).value;
      var fields := Split(line[..|line| - 1], "=");
      JoinSplit(line[..|line| - 1], "=");
      assert Join(fields, "=") == fields[0] + "=" + fields[1];
      assert line == line[..|line| - 1] + "\n";
      assert BranchLine(b) == line;
      BranchLinesOfParsed(lines[1..], bs[1..]);
    }
  }

  lemma HeadLineOfParsed(line: string)
    requires ParseHeadLine(line).Some?
    ensures HeadLine(Refs(ParseHeadLine(line).value.0, ParseHeadLine(line).value.1, [])) == line
  {
    var h := ParseHeadLine(line).value;
    var x := line[..|line| - 1];
    var fields := Split(x, "=");
    var ids := Split(fields[1], ",");
    JoinSplit(x, "=");
    JoinSplit(fields[1], ",");
    assert [h.0] + h.1 == ids;
    assert Join(fields, "=") == "HEAD" + "=" + fields[1];
    assert line == x + "\n";
  }

  /** A text that parses is exactly the serialisation of what it parses to. */
  lemma SerializeParse(text: string)
    requires Parse(text).Some?
    ensures Serialize(Parse(text).value) == text
  {
    var r := Parse(text).value;
    var lines := ReadLines(text);
    var first := lines[0];
    HeadLineOfParsed(first);
    BranchLinesOfParsed(lines[1..], r.branches);
    assert Concat(lines) == first + Concat(lines[1..]);
  }
}

=== FILE: references.dfy ===
/** The reference file as wit.py reads and rewrites it: by slicing its text.

    `refs: Option<string>` is the content of `.wit/references.txt`, `None` when the file
    does not exist. Where wit.py raises on a malformed file, the function returns `None`. */
module References {
  import opened Optional
  import opened Text

  /** `get_head_commit_id`: the text after the first `=` of the first line, cut to 40
      characters. It is `None` when the file is missing, and also when the file's first line
      has no `=` (the IndexError branch). */
  function HeadCommitId(refs: Option<string>): (r: Option<string>)
    ensures r.None? <==> refs.None? || '=' !in FirstLine(refs.value)
    ensures r.Some? ==> |r.value| <= 40
  {
    if refs.None? then None
    else
      var fields := Split(FirstLine(refs.value), "=");
      SplitCharCount(FirstLine(refs.value), '=');
      if |fields| < 2 then None else Some(Take(fields[1], 40))
  }

  /** `get_branches`: the text before the first `=` of every line after the first. */
  function Branches(text: string): (r: seq<string>)
    ensures |r| == if ReadLines(text) == [] then 0 else |ReadLines(text)| - 1
    ensures forall k :: 0 <= k < |r| ==> r[k] <= ReadLines(text)[k + 1]
  {
    var lines := ReadLines(text);
    if lines == [] then []
    else seq(|lines| - 1, k requires 0 <= k < |lines| - 1 => FirstField(lines[k + 1], "="))
  }

  /** `get_branch_id`: the text between the first occurrence of "\n<name>=" and the next
      newline. It is `None` when the file is missing or the pattern does not occur. */
  function BranchId(refs: Option<string>, name: string): (r: Option<string>)
    ensures r.Some? <==> refs.Some? && Find(refs.value, "\n" + name + "=").Some?
  {
    if refs.None? then None
    else
      var pattern := "\n" + name + "=";
      var parts := Split(refs.value, pattern);
      SplitFound(refs.value, pattern);
      if |parts| < 2 then None else Some(FirstField(parts[1], "\n"))
  }

  /** One iteration of `gen_new_text`'s loop. A line whose name is `active` and whose id
      (the text after `=` minus its last character) equals the previous HEAD is replaced by
      `active=<commitId>`; every other line is copied. `None` when the line does not split
      into exactly two fields at `=` (Python's ValueError on the unpacking). */
  function RewriteLine(line: string, previousHead: Option<string>, commitId: string, active: string)
    : (r: Option<string>)
    ensures r.Some? <==> |Split(line, "=")| == 2
    ensures r.Some? ==> r.value == line || r.value == active + "=" + commitId + "\n"
  {
    var fields := Split(line, "=");
    if |fields| != 2 then None
    else if fields[0] == active && previousHead == Some(DropLast(fields[1])) then
      Some(active + "=" + commitId + "\n")
    else Some(line)
  }

  /** The rewritten lines, concatenated in their original order. */
  function RewriteLines(lines: seq<string>, previousHead: Option<string>, commitId: string, active: string)
    : (r: Option<string>)
    ensures r.Some? <==> forall k :: 0 <= k < |lines| ==> |Split(lines[k], "=")| == 2
  {
    if lines == [] then Some("")
    else
      var head := RewriteLine(lines[0], previousHead, commitId, active);
      var tail := RewriteLines(lines[1..], previousHead, commitId, active);
      assert forall k :: 1 <= k < |lines| ==> lines[k] == lines[1..][k - 1];
      if head.Some? && tail.Some? then Some(head.value + tail.value) else None
  }

  /** `gen_new_text`: a fresh `HEAD=<commitId>` line followed by the old branch lines, each
      rewritten by `RewriteLine` against the HEAD read before the rewrite. The old HEAD line,
      merge notes included, is dropped. */
  function GenNewText(text: string, commitId: string, active: string): (r: Option<string>)
    ensures r.Some? ==> "HEAD=" + commitId + "\n" <= r.value
  {
    var lines := ReadLines(text);
    var body := RewriteLines(if lines == [] then [] else lines[1..], HeadCommitId(Some(text)), commitId, active);
    if body.None? then None else Some("HEAD=" + commitId + "\n" + body.value)
  }

  /** `log_references`: rewrite an existing file with `gen_new_text`; with no file, create one
      binding HEAD and `master` to the commit, whatever the active branch. */
  function LogReferences(refs: Option<string>, commitId: string, active: string): (r: Option<string>)
    ensures refs.None? ==> r == Some("HEAD=" + commitId + "\nmaster=" + commitId + "\n")
    ensures refs.Some? ==> r == GenNewText(refs.value, commitId, active)
  {
    if refs.None? then Some("HEAD=" + commitId + "\nmaster=" + commitId + "\n")
    else GenNewText(refs.value, commitId, active)
  }

  /** `add_branch_label`: append `<name>=<HEAD>` to the file; a missing HEAD prints as "None". */
  function AddBranchLabel(text: string, name: string): (r: string)
    ensures text <= r && r[|text|..] == name + "=" + Show(HeadCommitId(Some(text))) + "\n"
  {
    text + name + "=" + Show(HeadCommitId(Some(text))) + "\n"
  }

  /** `branch`: add a label only for a name `get_branches` does not list. */
  function Branch(text: string, name: string): (r: string)
    ensures name in Branches(text) ==> r == text
    ensures name !in Branches(text) ==> text < r
  {
    if name in Branches(text) then text else AddBranchLabel(text, name)
  }

  /** `update_references`: every newline of the first line becomes `,<branchId>` plus a
      newline, and the file is rewritten from its start without truncation. `None` for an
      empty file (the IndexError on `lines[0]`). The rest of the file is kept as it was. */
  function UpdateReferences(text: string, branchId: string): (r: Option<string>)
    ensures r.None? <==> text == ""
    ensures r.Some? ==> r.value == ReplaceAll(FirstLine(text), '\n', "," + branchId + "\n") + text[|FirstLine(text)|..]
  {
    var lines := ReadLines(text);
    if lines == [] then None
    else
      var rewritten := ReplaceAll(lines[0], '\n', "," + branchId + "\n") + Concat(lines[1..]);
      assert text == lines[0] + Concat(lines[1..]);
      assert text[|lines[0]|..] == Concat(lines[1..]);
      ReplaceAllLonger(lines[0], '\n', "," + branchId + "\n");
      Some(OverwriteFromStart(text, rewritten))
  }

  lemma SplitCharCount(s: string, c: char)
    ensures |Split(s, [c])| >= 2 <==> c in s
  {
    if c in s {
      var k :| 0 <= k < |s| && s[k] == c;
      OccursAtChar(s, c, k);
    } else {
      FindCharNone(s, c);
    }
  }
}

=== FILE: repository.dfy ===
/** The commands of wit over a repository held as a value: the reference file (absent before
    the first commit), the activated branch, the images, the staging area and the working
    tree. Each command returns the new repository and how it ended: done, stopped with a
    message, or with an exception, in which case every write made before it stays. */
module Repository {
  import opened Optional
  import opened ReferenceRecord
  import References
  import opened Snapshots
  import opened History

  datatype Repo = Repo(refs: Option<string>, active: string, store: Store, staging: Snapshot, work: Snapshot)

  /** The checks that print a message and return. */
  datatype Halt =
    | FirstCommitNotOnMaster  // "First commit has to be made in master branch."
    | UnstagedChanges         // "Process stopped - there're unstaged files"

  /** The exceptions a command can end with. */
  datatype Failure =
    | MissingReferences    // FileNotFoundError opening the reference file
    | DuplicateCommitId    // FileExistsError: the image directory already exists
    | MalformedReferences  // ValueError or IndexError while rewriting the reference file
    | MissingCommit        // FileNotFoundError opening an image's metadata file
    | ActiveBranchUnbound  // UnboundLocalError: checkout of a commit id, not a branch

  datatype Outcome = Done | Stopped(halt: Halt) | Raised(failure: Failure)

  datatype Step = Step(repo: Repo, outcome: Outcome)

  /** `init`: empty images and staging area, with master activated. */
  function Init(work: Snapshot): Repo {
    Repo(None, "master", map[], map[], work)
  }

  /** `commit`: store the staging area under the new id with HEAD as its parent, then
      rewrite the references. The first commit must be made on master. */
  function Commit(repo: Repo, message: string, id: string, date: string): (s: Step)
    ensures s.outcome.Stopped? <==> repo.active != "master" && repo.refs.None?
    ensures s.outcome.Stopped? ==> s.repo == repo && s.outcome.halt == FirstCommitNotOnMaster
    ensures s.outcome == Raised(DuplicateCommitId) <==> !s.outcome.Stopped? && id in repo.store
    ensures s.outcome == Raised(DuplicateCommitId) ==> s.repo == repo
    ensures s.outcome.Raised? ==> s.outcome.failure == DuplicateCommitId || s.outcome.failure == MalformedReferences
    ensures s.repo.active == repo.active && s.repo.staging == repo.staging && s.repo.work == repo.work
    ensures s.outcome.Done? || s.outcome == Raised(MalformedReferences) ==>
              && id !in repo.store && id in s.repo.store
              && s.repo.store == repo.store[id := s.repo.store[id]]
              && s.repo.store[id].tree == repo.staging
              && s.repo.store[id].meta.parent == References.HeadCommitId(repo.refs)
    ensures s.outcome == Raised(MalformedReferences) ==> s.repo.refs == repo.refs
    ensures s.outcome.Done? ==> s.repo.refs.Some?
    ensures repo.refs.Some? && id !in repo.store ==>
              && (s.outcome.Done? <==> References.LogReferences(repo.refs, id, repo.active).Some?)
              && (s.outcome.Done? ==> s.repo.refs == References.LogReferences(repo.refs, id, repo.active))
    ensures s.outcome.Done? || s.outcome == Raised(MalformedReferences) ==>
              s.repo.store[id].meta == Meta(References.HeadCommitId(repo.refs), date, message)
    ensures repo.refs.None? && repo.active == "master" && id !in repo.store ==>
              s.outcome.Done? && s.repo.refs == Some("HEAD=" + id + "\nmaster=" + id + "\n")
  {
    if repo.active != "master" && repo.refs.None? then Step(repo, Stopped(FirstCommitNotOnMaster))
    else if id in repo.store then Step(repo, Raised(DuplicateCommitId))
    else
      var image := Image(repo.staging, Meta(References.HeadCommitId(repo.refs), date, message));
      var stored := repo.(store := repo.store[id := image]);
      match References.LogReferences(repo.refs, id, repo.active)
      case None => Step(stored, Raised(MalformedReferences))
      case Some(text) => Step(stored.(refs := Some(text)), Done)
  }

  /** `checkout`: a branch name is activated and resolved to its id before the unstaged-files
      check; then the image, if there is one, is copied over the working tree and the
      references are rewritten with the target as the active branch. For a commit id that is
      not a branch name the last step raises, since no active branch was bound. */
  function Checkout(repo: Repo, target: string, notStaged: seq<Path>): (s: Step)
    ensures repo.refs.None? ==> s == Step(repo, Raised(MissingReferences))
    ensures s.repo.store == repo.store && s.repo.staging == repo.staging
    ensures repo.refs.Some? ==>
              s.repo.active == if target in References.Branches(repo.refs.value) then target else repo.active
    ensures repo.refs.Some? && notStaged != [] ==>
              s.outcome == Stopped(UnstagedChanges) && s.repo.refs == repo.refs && s.repo.work == repo.work
    ensures repo.refs.Some? && target !in References.Branches(repo.refs.value) && notStaged == [] ==>
              if target in repo.store
              then s.outcome == Raised(ActiveBranchUnbound) && s.repo.refs == repo.refs
                   && s.repo.work == Overlay(repo.work, repo.store[target].tree)
              else s.outcome.Done? && s.repo.refs == repo.refs && s.repo.work == repo.work
    ensures repo.refs.Some? && target in References.Branches(repo.refs.value) && notStaged == [] ==>
              var id := Show(References.BranchId(repo.refs, target));
              if id !in repo.store
              then s.outcome.Done? && s.repo.refs == repo.refs && s.repo.work == repo.work
              else && s.repo.work == Overlay(repo.work, repo.store[id].tree)
                   && (s.outcome.Done? <==> References.LogReferences(repo.refs, id, target).Some?)
                   && (s.outcome.Done? ==> s.repo.refs == References.LogReferences(repo.refs, id, target))
                   && (!s.outcome.Done? ==> s.outcome == Raised(MalformedReferences) && s.repo.refs == repo.refs)
  {
    match repo.refs
    case None => Step(repo, Raised(MissingReferences))
    case Some(text) =>
      var listed := target in References.Branches(text);
      var id := if listed then Show(References.BranchId(repo.refs, target)) else target;
      var activated := if listed then repo.(active := target) else repo;
      if notStaged != [] then Step(activated, Stopped(UnstagedChanges))
      else if id !in repo.store then Step(activated, Done)
      else
        var restored := activated.(work := Overlay(repo.work, repo.store[id].tree));
        if !listed then Step(restored, Raised(ActiveBranchUnbound))
        else match References.LogReferences(repo.refs, id, target)
          case None => Step(restored, Raised(MalformedReferences))
          case Some(t) => Step(restored.(refs := Some(t)), Done)
  }

  /** `branch`: a name not yet listed gets a line bound to HEAD; a listed name changes
      nothing. */
  function Branch(repo: Repo, name: string): (s: Step)
    ensures repo.refs.None? <==> s.outcome == Raised(MissingReferences)
    ensures s.repo.active == repo.active && s.repo.store == repo.store
    ensures s.repo.staging == repo.staging && s.repo.work == repo.work
    ensures repo.refs.Some? ==> s.outcome.Done? && s.repo.refs.Some? && repo.refs.value <= s.repo.refs.value
    ensures repo.refs.Some? ==> s.repo.refs == Some(References.Branch(repo.refs.value, name))
    ensures repo.refs.Some? && name !in References.Branches(repo.refs.value) ==>
              |s.repo.refs.value| > |repo.refs.value|
    ensures repo.refs.None? || name in References.Branches(repo.refs.value) ==> s.repo == repo
  {
    match repo.refs
    case None => Step(repo, Raised(MissingReferences))
    case Some(text) => Step(repo.(refs := Some(References.Branch(text, name))), Done)
  }

  /** The last step of `merge`: after the commit, `update_references` appends the branch's
      id to the HEAD line. It opens the reference file whether or not the commit wrote it. */
  function NoteMerge(c: Step, tip: string): (s: Step)
    ensures c.outcome.Raised? ==> s == c
    ensures s.repo.active == c.repo.active && s.repo.work == c.repo.work
    ensures s.repo.store == c.repo.store && s.repo.staging == c.repo.staging
    ensures s.outcome.Done? ==> !c.outcome.Raised? && c.repo.refs.Some?
    ensures s.outcome.Raised? ==> c.outcome.Raised? || s.outcome.failure == MissingReferences
                                  || s.outcome.failure == MalformedReferences
    ensures c.repo.refs.Some? && c.repo.refs.value != "" && !c.outcome.Raised? ==> s.outcome.Done?
    ensures s.outcome.Done? ==> s.repo.refs == References.UpdateReferences(c.repo.refs.value, tip)
    ensures !c.outcome.Raised? && c.repo.refs.None? ==> s.outcome == Raised(MissingReferences)
    ensures !c.outcome.Raised? && c.repo.refs == Some("") ==> s.outcome == Raised(MalformedReferences)
  {
    if c.outcome.Raised? then c
    else match c.repo.refs
      case None => Step(c.repo, Raised(MissingReferences))
      case Some(text) =>
        match References.UpdateReferences(text, tip)
        case None => Step(c.repo, Raised(MalformedReferences))
        case Some(t) => Step(c.repo.(refs := Some(t)), Done)
  }

  /** The first steps of `merge`: the branch's tip, read with `get_branch_id`, and its prime
      commit in HEAD's history. `None` where `get_parent_commit_id` fails to open a metadata
      file. */
  function MergeBase(repo: Repo, name: string): (r: Option<(string, string)>)
    ensures var tip := Show(References.BranchId(repo.refs, name));
            var prime := PrimeOf(repo.store, OrderedCommitIds(repo.store, repo.refs), tip);
            && (r.None? <==> prime.None?)
            && (r.Some? ==> r.value == (tip, prime.value))
    ensures r.Some? ==> r.value.0 in repo.store && r.value.1 in repo.store
  {
    var tip := Show(References.BranchId(repo.refs, name));
    PrimeStored(repo.store, repo.refs, tip);
    match PrimeOf(repo.store, OrderedCommitIds(repo.store, repo.refs), tip)
    case None => None
    case Some(prime) => Some((tip, prime))
  }

  /** `merge`: find the prime commit of the branch's tip in HEAD's history, copy every file
      the branch changed since then into the staging area, commit, and note the branch's id
      on the HEAD line. */
  function Merge(repo: Repo, name: string, id: string, date: string): (s: Step)
    ensures MergeBase(repo, name).None? <==> s.outcome == Raised(MissingCommit)
    ensures s.outcome == Raised(MissingCommit) ==> s.repo == repo
    ensures s.repo.active == repo.active && s.repo.work == repo.work
    ensures s.outcome.Done? ==> id in s.repo.store && id !in repo.store
    ensures s.outcome.Done? ==> s.repo.store[id].tree == s.repo.staging
    ensures MergeBase(repo, name).Some? ==>
              var tip := MergeBase(repo, name).value.0;
              var prime := MergeBase(repo, name).value.1;
              s.repo.staging == MergeStaging(repo.staging, repo.store[tip].tree, repo.store[prime].tree)
    ensures s.outcome.Done? ==>
              && s.repo.store[id].meta == Meta(References.HeadCommitId(repo.refs), date, "Branch " + name + " was merged")
              && References.LogReferences(repo.refs, id, repo.active).Some?
              && s.repo.refs == References.UpdateReferences(References.LogReferences(repo.refs, id, repo.active).value,
                                                            MergeBase(repo, name).value.0)
  {
    match MergeBase(repo, name)
    case None => Step(repo, Raised(MissingCommit))
    case Some((tip, prime)) =>
      var staged := repo.(staging := MergeStaging(repo.staging, repo.store[tip].tree, repo.store[prime].tree));
      NoteMerge(Commit(staged, "Branch " + name + " was merged", id, date), tip)
  }
}

=== FILE: repository_laws.dfy ===
/** What the commands keep true of a repository, and what each does to its history and
    references when it succeeds. The invariant ties the reference text to a valid record
    whose ids are all stored images, so the text-level laws of the reference file apply. */
module RepositoryLaws {
  import opened Optional
  import opened ReferenceRecord
  import References
  import opened ReferenceLaws
  import opened Snapshots
  import opened Ancestry
  import opened History
  import opened Repository

  /** Every id the record names is a stored image. */
  predicate IdsStored(r: Refs, store: Store) {
    && r.head in store
    && (forall k :: 0 <= k < |r.mergeNotes| ==> r.mergeNotes[k] in store)
    && (forall k :: 0 <= k < |r.branches| ==> r.branches[k].1 in store)
  }

  /** The reference text reads as a valid record whose ids are all stored. */
  predicate Tracks(text: string, store: Store) {
    && Parse(text).Some?
    && Valid(Parse(text).value)
    && IdsStored(Parse(text).value, store)
  }

  /** What the commands maintain, `rank` being the order the images were made in: the images
      form a grounded store, there is no reference file before the first commit, and after it
      the file tracks the images. */
  predicate Consistent(repo: Repo, rank: map<string, nat>) {
    && GroundedBy(repo.store, rank)
    && (repo.refs.None? ==> repo.store == map[])
    && (repo.refs.Some? ==> Tracks(repo.refs.value, repo.store))
  }

  /** The record a consistent repository's reference text holds. */
  function Record(repo: Repo): Refs
    requires repo.refs.Some? && Parse(repo.refs.value).Some?
  {
    Parse(repo.refs.value).value
  }

  // ----- reading a tracked reference text -----

  /** A tracked text is the serialisation of its record, and its HEAD is the record's. */
  lemma ReadTracked(text: string, store: Store)
    requires Tracks(text, store)
    ensures WellFormed(Parse(text).value)
    ensures text == Serialize(Parse(text).value)
    ensures References.HeadCommitId(Some(text)) == Some(Parse(text).value.head)
  {
    var r := Parse(text).value;
    SerializeParse(text);
    ValidIsWellFormed(r);
    HeadOfSerialized(r);
  }

  /** A valid record reads back from its serialisation. */
  lemma WriteValid(r: Refs)
    requires Valid(r)
    ensures Parse(Serialize(r)) == Some(r)
  {
    ValidIsWellFormed(r);
    ParseSerialize(r);
  }

  /** A listed branch name is a valid name bound to a stored, generated id. */
  lemma ListedBranch(r: Refs, store: Store, name: string)
    requires Valid(r) && IdsStored(r, store) && name in Names(r.branches)
    ensures ValidName(name)
    ensures Lookup(r.branches, name).Some?
    ensures Lookup(r.branches, name).value in store && ValidId(Lookup(r.branches, name).value)
  {
    var k :| 0 <= k < |r.branches| && r.branches[k] == (name, Lookup(r.branches, name).value);
    assert r.branches[k].0 == name;
  }

  lemma IdsStoredGrow(r: Refs, store: Store, id: string, image: Image)
    requires IdsStored(r, store)
    ensures IdsStored(r, store[id := image])
  {
  }

  lemma IdsStoredAdvance(r: Refs, store: Store, id: string, active: string)
    requires IdsStored(r, store) && id in store
    ensures IdsStored(Advance(r, id, active), store)
  {
  }

  // ----- init and commit -----

  /** `init` starts a consistent repository. */
  lemma InitConsistent(work: Snapshot)
    ensures Consistent(Init(work), map[])
  {
  }

  /** The record the first commit writes is valid and names only the new image. */
  lemma InitialTracks(id: string, store: Store)
    requires ValidId(id) && id in store
    ensures Parse(Serialize(Initial(id))) == Some(Initial(id))
    ensures Tracks(Serialize(Initial(id)), store)
  {
    var r := Initial(id);
    assert Valid(r);
    WriteValid(r);
  }

  /** The record a later commit writes is valid and names only stored images. */
  lemma AdvanceTracks(text: string, store: Store, id: string, image: Image, active: string)
    requires Tracks(text, store) && ValidId(id)
    ensures var r := Advance(Parse(text).value, id, active);
            Parse(Serialize(r)) == Some(r) && Tracks(Serialize(r), store[id := image])
  {
    var r := Parse(text).value;
    AdvanceValid(r, id, active);
    WriteValid(Advance(r, id, active));
    IdsStoredGrow(r, store, id, image);
    IdsStoredAdvance(r, store[id := image], id, active);
  }

  /** On a consistent repository `commit` writes the record the reference laws predict: the
      initial record for the first commit, and otherwise the old record advanced to the new
      id. It raises only for an id already taken. */
  lemma CommitRecord(repo: Repo, rank: map<string, nat>, message: string, id: string, date: string)
    requires Consistent(repo, rank) && ValidId(id) && id !in repo.store
    requires repo.active == "master" || repo.refs.Some?
    ensures var s := Commit(repo, message, id, date);
            && s.outcome.Done?
            && s.repo.refs.Some? && Tracks(s.repo.refs.value, s.repo.store)
            && Parse(s.repo.refs.value).value ==
                 if repo.refs.None? then Initial(id) else Advance(Record(repo), id, repo.active)
  {
    var s := Commit(repo, message, id, date);
    if repo.refs.None? {
      FirstCommitReferences(id, repo.active);
      InitialTracks(id, s.repo.store);
    } else {
      var text := repo.refs.value;
      ReadTracked(text, repo.store);
      GenNewTextOfSerialized(Record(repo), id, repo.active);
      AdvanceTracks(text, repo.store, id, s.repo.store[id], repo.active);
    }
  }

  /** The new image's parent is the HEAD the references named, and the store stays
      grounded with the new id ranked last. */
  lemma CommitGrounded(repo: Repo, rank: map<string, nat>, message: string, id: string, date: string)
    requires Consistent(repo, rank) && ValidId(id) && id !in repo.store
    requires repo.active == "master" || repo.refs.Some?
    ensures var s := Commit(repo, message, id, date);
            && s.repo.store == repo.store[id := s.repo.store[id]]
            && s.repo.store[id].meta.parent == (if repo.refs.None? then None else Some(Record(repo).head))
            && GroundedBy(s.repo.store, rank[id := |repo.store|])
  {
    var s := Commit(repo, message, id, date);
    var image := s.repo.store[id];
    assert image.meta.parent == (if repo.refs.None? then None else Some(Record(repo).head)) by {
      if repo.refs.Some? {
        ReadTracked(repo.refs.value, repo.store);
      }
    }
    GroundedAdd(repo.store, rank, id, image);
  }

  /** `commit` keeps a repository consistent; when it stores an image, the new id takes the
      next rank. */
  lemma CommitConsistent(repo: Repo, rank: map<string, nat>, message: string, id: string, date: string)
    requires Consistent(repo, rank) && ValidId(id)
    ensures var s := Commit(repo, message, id, date);
            && (s.outcome.Done? || s.outcome.Stopped? || s.outcome == Raised(DuplicateCommitId))
            && Consistent(s.repo, if s.outcome.Done? then rank[id := |repo.store|] else rank)
  {
    var s := Commit(repo, message, id, date);
    if !(repo.active != "master" && repo.refs.None?) && id !in repo.store {
      CommitRecord(repo, rank, message, id, date);
      CommitGrounded(repo, rank, message, id, date);
    }
  }

  /** After a commit the ordered commit list is the new id followed by the list before it:
      HEAD moved to the new image, whose parent link leads back to the old HEAD. */
  lemma CommitExtendsHistory(repo: Repo, rank: map<string, nat>, message: string, id: string, date: string)
    requires Consistent(repo, rank) && ValidId(id) && id !in repo.store
    requires repo.active == "master" || repo.refs.Some?
    ensures var s := Commit(repo, message, id, date);
            OrderedCommitIds(s.repo.store, s.repo.refs) == [id] + OrderedCommitIds(repo.store, repo.refs)
  {
    var s := Commit(repo, message, id, date);
    var image := s.repo.store[id];
    assert References.HeadCommitId(s.repo.refs) == Some(id) by {
      CommitRecord(repo, rank, message, id, date);
      ReadTracked(s.repo.refs.value, s.repo.store);
    }
    assert image.meta.parent.Some? ==> image.meta.parent.value in repo.store by {
      CommitGrounded(repo, rank, message, id, date);
      if repo.refs.Some? {
        ReadTracked(repo.refs.value, repo.store);
      }
    }
    OrderedCommitIdsAfterCommit(repo.store, rank, id, image, repo.refs, s.repo.refs);
  }

  // ----- checkout -----

  /** On a tracked text, `get_branches` lists the record's names and `get_branch_id` of a
      listed name reads the record's stored id for it. */
  lemma ReadBranch(text: string, store: Store, target: string)
    requires Tracks(text, store)
    ensures References.Branches(text) == Names(Parse(text).value.branches)
    ensures target in Names(Parse(text).value.branches) ==>
              && Lookup(Parse(text).value.branches, target).Some?
              && References.BranchId(Some(text), target) == Lookup(Parse(text).value.branches, target)
              && Lookup(Parse(text).value.branches, target).value in store
              && ValidId(Lookup(Parse(text).value.branches, target).value)
  {
    var r := Parse(text).value;
    ReadTracked(text, store);
    BranchesOfSerialized(r);
    if target in Names(r.branches) {
      ListedBranch(r, store, target);
      BranchIdOfSerialized(r, target);
    }
  }

  /** Checking out a listed branch with nothing unstaged activates it, copies its image over
      the working tree and rewrites the references as a commit of the branch's id would: HEAD
      becomes that id, which the branch then names. */
  lemma CheckoutBranch(repo: Repo, rank: map<string, nat>, target: string, notStaged: seq<Path>)
    requires Consistent(repo, rank) && repo.refs.Some? && notStaged == []
    requires target in Names(Record(repo).branches)
    ensures var s := Checkout(repo, target, notStaged);
            var cid := Lookup(Record(repo).branches, target);
            && cid.Some? && cid.value in repo.store
            && s.outcome.Done? && s.repo.active == target
            && s.repo.work == Overlay(repo.work, repo.store[cid.value].tree)
            && s.repo.refs == Some(Serialize(Advance(Record(repo), cid.value, target)))
            && Tracks(s.repo.refs.value, s.repo.store)
            && References.HeadCommitId(s.repo.refs) == cid
            && Lookup(Record(s.repo).branches, target) == cid
  {
    var text := repo.refs.value;
    var r := Record(repo);
    ReadBranch(text, repo.store, target);
    var cid := Lookup(r.branches, target).value;
    var r' := Advance(r, cid, target);
    assert References.LogReferences(repo.refs, cid, target) == Some(Serialize(r')) by {
      ReadTracked(text, repo.store);
      GenNewTextOfSerialized(r, cid, target);
    }
    assert Parse(Serialize(r')) == Some(r') && Tracks(Serialize(r'), repo.store) by {
      AdvanceValid(r, cid, target);
      WriteValid(r');
      IdsStoredAdvance(r, repo.store, cid, target);
    }
    var s := Checkout(repo, target, notStaged);
    assert s == Step(repo.(active := target, work := Overlay(repo.work, repo.store[cid].tree),
                           refs := Some(Serialize(r'))), Done);
    assert References.HeadCommitId(s.repo.refs) == Some(cid) by {
      ReadTracked(Serialize(r'), repo.store);
    }
    assert Lookup(Record(s.repo).branches, target) == Some(cid) by {
      AdvanceMovesActiveOnlyFromHead(r, cid, target, target);
    }
  }

  /** `checkout` keeps a repository consistent, whatever the target and whether it stops or
      raises: only a completed branch checkout rewrites the references. */
  lemma CheckoutConsistent(repo: Repo, rank: map<string, nat>, target: string, notStaged: seq<Path>)
    requires Consistent(repo, rank)
    ensures Consistent(Checkout(repo, target, notStaged).repo, rank)
  {
    if repo.refs.Some? && notStaged == [] {
      ReadBranch(repo.refs.value, repo.store, target);
      if target in Names(Record(repo).branches) {
        CheckoutBranch(repo, rank, target, notStaged);
      }
    }
  }

  // ----- branch -----

  lemma AppendedStored(bs: seq<(string, string)>, b: (string, string), store: Store)
    requires forall k :: 0 <= k < |bs| ==> bs[k].1 in store
    requires b.1 in store
    ensures forall k :: 0 <= k < |bs + [b]| ==> (bs + [b])[k].1 in store
  {
    forall k | 0 <= k < |bs + [b]|
      ensures (bs + [b])[k].1 in store
    {
      if k < |bs| {
        assert (bs + [b])[k] == bs[k];
      }
    }
  }

  lemma IdsStoredCreate(r: Refs, store: Store, name: string)
    requires IdsStored(r, store)
    ensures IdsStored(CreateBranch(r, name), store)
  {
    if name !in Names(r.branches) {
      assert CreateBranch(r, name) == r.(branches := r.branches + [(name, r.head)]);
      AppendedStored(r.branches, (name, r.head), store);
    }
  }

  /** On a consistent repository, `branch` with a name that fits on a branch line writes
      the record `CreateBranch` predicts. The name then reads as its old id if it was listed
      and as HEAD if it is new, and HEAD itself does not move. */
  lemma BranchRecord(repo: Repo, rank: map<string, nat>, name: string)
    requires Consistent(repo, rank) && repo.refs.Some? && ValidName(name)
    ensures var s := Branch(repo, name);
            && s.outcome.Done? && s.repo.refs.Some?
            && Parse(s.repo.refs.value) == Some(CreateBranch(Record(repo), name))
            && Tracks(s.repo.refs.value, s.repo.store)
            && References.HeadCommitId(s.repo.refs) == References.HeadCommitId(repo.refs)
            && References.BranchId(s.repo.refs, name) ==
                 if name in Names(Record(repo).branches) then References.BranchId(repo.refs, name)
                 else Some(Record(repo).head)
  {
    var text := repo.refs.value;
    var r := Record(repo);
    var r' := CreateBranch(r, name);
    ReadTracked(text, repo.store);
    BranchOfSerialized(r, name);
    assert Parse(Serialize(r')) == Some(r') && Tracks(Serialize(r'), repo.store) by {
      CreateBranchValid(r, name);
      WriteValid(r');
      IdsStoredCreate(r, repo.store, name);
    }
    ReadTracked(Serialize(r'), repo.store);
    BranchIdOfSerialized(r, name);
    BranchIdOfSerialized(r', name);
  }

  /** A new name adds exactly one line, `name=<HEAD>`, at the end of the file, so
      `get_branches` lists the old names followed by it. */
  lemma BranchAppendsLine(repo: Repo, rank: map<string, nat>, name: string)
    requires Consistent(repo, rank) && repo.refs.Some? && ValidName(name)
    requires name !in References.Branches(repo.refs.value)
    ensures var s := Branch(repo, name);
            && s.repo.refs.Some?
            && s.repo.refs.value == repo.refs.value + name + "=" + Record(repo).head + "\n"
            && References.Branches(s.repo.refs.value) == References.Branches(repo.refs.value) + [name]
  {
    var r := Record(repo);
    var r' := CreateBranch(r, name);
    ReadTracked(repo.refs.value, repo.store);
    BranchesOfSerialized(r);
    LabelOfSerialized(r, name);
    BranchRecord(repo, rank, name);
    assert Branch(repo, name).repo.refs == Some(Serialize(r')) by {
      ReadTracked(Branch(repo, name).repo.refs.value, repo.store);
    }
    ValidIsWellFormed(r');
    BranchesOfSerialized(r');
  }

  /** `branch` leaves the id every other name reads as alone. */
  lemma BranchKeepsOthers(repo: Repo, rank: map<string, nat>, name: string, other: string)
    requires Consistent(repo, rank) && repo.refs.Some? && ValidName(name) && ValidName(other) && other != name
    ensures References.BranchId(Branch(repo, name).repo.refs, other) == References.BranchId(repo.refs, other)
  {
    var r := Record(repo);
    var r' := CreateBranch(r, name);
    BranchRecord(repo, rank, name);
    assert Branch(repo, name).repo.refs == Some(Serialize(r')) by {
      ReadTracked(Branch(repo, name).repo.refs.value, repo.store);
    }
    ReadTracked(repo.refs.value, repo.store);
    ValidIsWellFormed(r');
    BranchIdOfSerialized(r, other);
    BranchIdOfSerialized(r', other);
    CreateBranchKeepsOthers(r, name, other);
  }

  /** Creating a branch a second time changes nothing. */
  lemma BranchIdempotent(repo: Repo, rank: map<string, nat>, name: string)
    requires Consistent(repo, rank) && ValidName(name)
    ensures Branch(Branch(repo, name).repo, name) == Branch(repo, name)
  {
    if repo.refs.Some? {
      var s := Branch(repo, name);
      BranchRecord(repo, rank, name);
      ReadTracked(s.repo.refs.value, s.repo.store);
      BranchesOfSerialized(CreateBranch(Record(repo), name));
      assert name in Names(CreateBranch(Record(repo), name).branches) by {
        assert Lookup(CreateBranch(Record(repo), name).branches, name).Some?;
      }
    }
  }

  /** `branch` keeps a repository consistent. */
  lemma BranchConsistent(repo: Repo, rank: map<string, nat>, name: string)
    requires Consistent(repo, rank) && ValidName(name)
    ensures Consistent(Branch(repo, name).repo, rank)
  {
    if repo.refs.Some? {
      BranchRecord(repo, rank, name);
    }
  }

  // ----- merge -----

  lemma IdsStoredMerge(r: Refs, store: Store, tip: string)
    requires IdsStored(r, store) && tip in store
    ensures IdsStored(RecordMerge(r, tip), store)
  {
    var notes := RecordMerge(r, tip).mergeNotes;
    forall k | 0 <= k < |notes|
      ensures notes[k] in store
    {
      if k < |r.mergeNotes| {
        assert notes[k] == notes[..|r.mergeNotes|][k];
      }
    }
  }

  /** The staging area does not enter the invariant. */
  lemma StagingFree(repo: Repo, rank: map<string, nat>, staging: Snapshot)
    requires Consistent(repo, rank)
    ensures Consistent(repo.(staging := staging), rank)
  {
  }

  /** A found merge base lies in a repository that has references. */
  lemma MergeBaseStored(repo: Repo, rank: map<string, nat>, name: string)
    requires Consistent(repo, rank) && MergeBase(repo, name).Some?
    ensures repo.refs.Some?
    ensures ValidId(MergeBase(repo, name).value.0)
  {
    assert MergeBase(repo, name).value.0 in repo.store;
  }

  /** The note `update_references` adds to a tracked text is the record's merge note. */
  lemma NoteTracked(text: string, store: Store, tip: string)
    requires Tracks(text, store) && tip in store && ValidId(tip)
    ensures References.UpdateReferences(text, tip) == Some(Serialize(RecordMerge(Parse(text).value, tip)))
    ensures Parse(Serialize(RecordMerge(Parse(text).value, tip))) == Some(RecordMerge(Parse(text).value, tip))
    ensures Tracks(Serialize(RecordMerge(Parse(text).value, tip)), store)
  {
    var r := Parse(text).value;
    ReadTracked(text, store);
    UpdateReferencesOfSerialized(r, tip);
    RecordMergeValid(r, tip);
    WriteValid(RecordMerge(r, tip));
    IdsStoredMerge(r, store, tip);
  }

  /** A merge with a base and a fresh id completes: it stores one image whose parent is the
      old HEAD and whose tree is the staging area with every file the branch changed since the
      base taken from the branch, and the references become the old record advanced to the
      new id with the branch's id noted on the HEAD line. */
  lemma MergeRecord(repo: Repo, rank: map<string, nat>, name: string, id: string, date: string)
    requires Consistent(repo, rank) && ValidId(id) && id !in repo.store
    requires MergeBase(repo, name).Some?
    ensures var s := Merge(repo, name, id, date);
            var tip := MergeBase(repo, name).value.0;
            var prime := MergeBase(repo, name).value.1;
            && repo.refs.Some? && Parse(repo.refs.value).Some?
            && s.outcome.Done?
            && s.repo.store == repo.store[id := s.repo.store[id]]
            && s.repo.store[id].tree == MergeStaging(repo.staging, repo.store[tip].tree, repo.store[prime].tree)
            && s.repo.store[id].tree == s.repo.staging
            && s.repo.store[id].meta.parent == Some(Record(repo).head)
            && s.repo.refs.Some?
            && Parse(s.repo.refs.value) == Some(RecordMerge(Advance(Record(repo), id, repo.active), tip))
            && Tracks(s.repo.refs.value, s.repo.store)
  {
    MergeBaseStored(repo, rank, name);
    var tip := MergeBase(repo, name).value.0;
    var prime := MergeBase(repo, name).value.1;
    var staged := repo.(staging := MergeStaging(repo.staging, repo.store[tip].tree, repo.store[prime].tree));
    StagingFree(repo, rank, staged.staging);
    var c := Commit(staged, "Branch " + name + " was merged", id, date);
    assert c.repo.store[id].meta.parent == Some(Record(repo).head) by {
      CommitGrounded(staged, rank, "Branch " + name + " was merged", id, date);
    }
    CommitRecord(staged, rank, "Branch " + name + " was merged", id, date);
    var text := c.repo.refs.value;
    NoteTracked(text, c.repo.store, tip);
    assert text != "" by {
      ReadTracked(text, c.repo.store);
    }
  }

  /** `merge` keeps a repository consistent. It completes, raises for a branch with no base
      in HEAD's history, or raises for an id already taken; only a completed merge stores an
      image, which takes the next rank. */
  lemma MergeConsistent(repo: Repo, rank: map<string, nat>, name: string, id: string, date: string)
    requires Consistent(repo, rank) && ValidId(id)
    ensures var s := Merge(repo, name, id, date);
            && (s.outcome.Done? || s.outcome == Raised(MissingCommit) || s.outcome == Raised(DuplicateCommitId))
            && Consistent(s.repo, if s.outcome.Done? then rank[id := |repo.store|] else rank)
  {
    if MergeBase(repo, name).Some? {
      MergeBaseStored(repo, rank, name);
      var tip := MergeBase(repo, name).value.0;
      var prime := MergeBase(repo, name).value.1;
      var staged := repo.(staging := MergeStaging(repo.staging, repo.store[tip].tree, repo.store[prime].tree));
      StagingFree(repo, rank, staged.staging);
      if id !in repo.store {
        MergeRecord(repo, rank, name, id, date);
        CommitGrounded(staged, rank, "Branch " + name + " was merged", id, date);
      }
    }
  }

  /** The base `merge` starts from: the first ancestor of the branch's tip, nearest first,
      that lies in HEAD's ordered commit list, so a tip already in that list is its own
      base. */
  lemma MergeBaseIsFirstShared(repo: Repo, rank: map<string, nat>, name: string)
    requires Consistent(repo, rank) && MergeBase(repo, name).Some?
    ensures var history := OrderedCommitIds(repo.store, repo.refs);
            var tip := MergeBase(repo, name).value.0;
            var prime := MergeBase(repo, name).value.1;
            && tip == Show(References.BranchId(repo.refs, name))
            && prime in history
            && Some(prime) == FirstIn(Chain(ParentMap(repo.store), tip, |repo.store|), history)
            && (tip in history ==> prime == tip)
  {
    var history := OrderedCommitIds(repo.store, repo.refs);
    var tip := MergeBase(repo, name).value.0;
    OrderedCommitIdsStored(repo.store, repo.refs);
    PrimeOfComplete(repo.store, rank, history, tip);
  }

  /** Merging a branch whose tip is already in HEAD's history copies nothing: the new image
      holds the staging area as it was. */
  lemma MergeAlreadyMerged(repo: Repo, rank: map<string, nat>, name: string, id: string, date: string)
    requires Consistent(repo, rank) && ValidId(id) && id !in repo.store
    requires MergeBase(repo, name).Some?
    requires MergeBase(repo, name).value.0 in OrderedCommitIds(repo.store, repo.refs)
    ensures Merge(repo, name, id, date).outcome.Done?
    ensures Merge(repo, name, id, date).repo.staging == repo.staging
  {
    var tip := MergeBase(repo, name).value.0;
    MergeBaseIsFirstShared(repo, rank, name);
    MergeRecord(repo, rank, name, id, date);
    var tree := repo.store[tip].tree;
    assert ChangedFiles(tree, tree) == {};
    SameSnapshot(MergeStaging(repo.staging, tree, tree), repo.staging);
  }

  /** `get_branch_id` finds nothing for a name `get_branches` does not list. */
  lemma UnlistedBranchId(repo: Repo, rank: map<string, nat>, name: string)
    requires Consistent(repo, rank) && ValidName(name)
    requires repo.refs.None? || name !in References.Branches(repo.refs.value)
    ensures References.BranchId(repo.refs, name) == None
  {
    if repo.refs.Some? {
      ReadBranch(repo.refs.value, repo.store, name);
      ReadTracked(repo.refs.value, repo.store);
      BranchIdOfSerialized(Record(repo), name);
    }
  }

  /** Merging a name that is not a branch raises before writing anything: `get_branch_id`
      finds no line, and the printed "None" names no commit. */
  lemma MergeUnknownBranch(repo: Repo, rank: map<string, nat>, name: string, id: string, date: string)
    requires Consistent(repo, rank) && ValidName(name)
    requires repo.refs.None? || name !in References.Branches(repo.refs.value)
    ensures Merge(repo, name, id, date) == Step(repo, Raised(MissingCommit))
  {
    assert Show(References.BranchId(repo.refs, name)) == "None" by {
      UnlistedBranchId(repo, rank, name);
    }
    assert "None" !in repo.store by {
      assert |"None"| == 4;
    }
    OrderedCommitIdsStored(repo.store, repo.refs);
  }
}

=== FILE: snapshots.dfy ===
/** Directory trees as values: a snapshot maps a path, relative to the tree's root, to the
    file's content. The working tree, the staging area and every commit image are snapshots. */
module Snapshots {

  type Path = string

  type Snapshot = map<Path, string>

  /** `r` lists some of the elements of `s`, in the order they have in `s`. */
  predicate SubsequenceOf(r: seq<Path>, s: seq<Path>)
    decreases |s|
  {
    || r == []
    || (&& s != []
        && ((r[0] == s[0] && SubsequenceOf(r[1..], s[1..])) || SubsequenceOf(r, s[1..])))
  }

  predicate Distinct(s: seq<Path>) {
    forall i, j :: 0 <= i < j < |s| ==> s[i] != s[j]
  }

  /** What `get_files` enumerates for a tree: each of its files exactly once. */
  predicate IsListing(walk: seq<Path>, tree: Snapshot) {
    && Distinct(walk)
    && (forall k :: 0 <= k < |walk| ==> walk[k] in tree)
    && (forall p :: p in tree ==> p in walk)
  }

  /** The merge set as a set: the paths present in both trees whose contents differ. */
  function ChangedFiles(branch: Snapshot, prime: Snapshot): (r: set<Path>)
    ensures forall p :: p in r <==> p in branch && p in prime && branch[p] != prime[p]
  {
    set p | p in branch && p in prime && branch[p] != prime[p]
  }

  /** `get_files_for_merging`: walk the branch tree in `walk` order and keep each file that
      the prime tree also holds with other content. */
  function FilesForMerging(walk: seq<Path>, branch: Snapshot, prime: Snapshot): (r: seq<Path>)
    requires forall k :: 0 <= k < |walk| ==> walk[k] in branch
    ensures forall p :: p in r <==> p in walk && p in ChangedFiles(branch, prime)
    ensures SubsequenceOf(r, walk)
    decreases |walk|
  {
    if walk == [] then []
    else
      var p := walk[0];
      var rest := FilesForMerging(walk[1..], branch, prime);
      assert forall q :: q in walk <==> q == p || q in walk[1..];
      if p in prime && branch[p] != prime[p] then
        assert ([p] + rest)[1..] == rest;
        [p] + rest
      else rest
  }

  /** A subsequence of a list without repetitions has none either. */
  lemma {:induction false} SubsequenceDistinct(r: seq<Path>, s: seq<Path>)
    requires SubsequenceOf(r, s) && Distinct(s)
    ensures Distinct(r)
    decreases |s|
  {
    if r != [] {
      assert Distinct(s[1..]);
      if r[0] == s[0] && SubsequenceOf(r[1..], s[1..]) {
        SubsequenceDistinct(r[1..], s[1..]);
        SubsequenceMembers(r[1..], s[1..]);
        forall j | 0 < j < |r|
          ensures r[0] != r[j]
        {
          assert r[j] == r[1..][j - 1];
          assert r[j] in r[1..];
          assert r[j] in s[1..];
          var k :| 0 <= k < |s[1..]| && s[1..][k] == r[j];
          assert s[k + 1] == r[j];
        }
        forall i, j | 0 < i < j < |r|
          ensures r[i] != r[j]
        {
          assert r[i] == r[1..][i - 1] && r[j] == r[1..][j - 1];
        }
      } else {
        SubsequenceDistinct(r, s[1..]);
      }
    }
  }

  lemma {:induction false} SubsequenceMembers(r: seq<Path>, s: seq<Path>)
    requires SubsequenceOf(r, s)
    ensures forall p :: p in r ==> p in s
    decreases |s|
  {
    if r != [] {
      if r[0] == s[0] && SubsequenceOf(r[1..], s[1..]) {
        SubsequenceMembers(r[1..], s[1..]);
        assert forall p :: p in r ==> p == r[0] || p in r[1..];
      } else {
        SubsequenceMembers(r, s[1..]);
      }
    }
  }

  /** On a listing of the branch tree, the merge list holds every changed file exactly once,
      in walk order. */
  lemma FilesForMergingOnListing(walk: seq<Path>, branch: Snapshot, prime: Snapshot)
    requires IsListing(walk, branch)
    ensures forall k :: 0 <= k < |walk| ==> walk[k] in branch
    ensures forall p :: p in FilesForMerging(walk, branch, prime) <==> p in ChangedFiles(branch, prime)
    ensures Distinct(FilesForMerging(walk, branch, prime))
  {
    var r := FilesForMerging(walk, branch, prime);
    SubsequenceDistinct(r, walk);
  }

  /** The branch's version of every changed file, laid over the staging area. */
  function MergeStaging(staging: Snapshot, branch: Snapshot, prime: Snapshot): (r: Snapshot)
    ensures forall p :: p in r <==> p in staging || p in ChangedFiles(branch, prime)
    ensures forall p :: p in ChangedFiles(branch, prime) ==> r[p] == branch[p]
    ensures forall p :: p in staging && p !in ChangedFiles(branch, prime) ==> r[p] == staging[p]
  {
    staging + map p | p in ChangedFiles(branch, prime) :: branch[p]
  }

  /** The copy loop of `merge`: each listed file of the branch tree is copied into the
      staging area, replacing the staged copy. */
  function CopyFiles(staging: Snapshot, branch: Snapshot, files: seq<Path>): (r: Snapshot)
    requires forall k :: 0 <= k < |files| ==> files[k] in branch
    ensures forall p :: p in r <==> p in staging || p in files
    ensures forall p :: p in files ==> r[p] == branch[p]
    ensures forall p :: p in staging && p !in files ==> r[p] == staging[p]
    decreases |files|
  {
    if files == [] then staging
    else
      var p := files[0];
      assert forall q :: q in files <==> q == p || q in files[1..];
      CopyFiles(staging[p := branch[p]], branch, files[1..])
  }

  lemma SameSnapshot(a: Snapshot, b: Snapshot)
    requires forall p :: (p in a <==> p in b) && (p in a ==> a[p] == b[p])
    ensures a == b
  {
  }

  /** Copying the merge list of any listing of the branch tree gives `MergeStaging`. */
  lemma CopyMergeFiles(staging: Snapshot, walk: seq<Path>, branch: Snapshot, prime: Snapshot)
    requires IsListing(walk, branch)
    ensures forall k :: 0 <= k < |walk| ==> walk[k] in branch
    ensures CopyFiles(staging, branch, FilesForMerging(walk, branch, prime)) == MergeStaging(staging, branch, prime)
  {
    FilesForMergingOnListing(walk, branch, prime);
    var files := FilesForMerging(walk, branch, prime);
    var changed := ChangedFiles(branch, prime);
    var a := CopyFiles(staging, branch, files);
    var b := MergeStaging(staging, branch, prime);
    forall p
      ensures p in a <==> p in b
      ensures p in a ==> a[p] == b[p]
    {
      assert p in files <==> p in changed;
    }
    SameSnapshot(a, b);
  }

  /** `copy_tree(image, work)`: every file of the image is written over the working tree,
      and files the image does not hold are left alone. */
  function Overlay(work: Snapshot, image: Snapshot): (r: Snapshot)
    ensures r.Keys == work.Keys + image.Keys
    ensures forall p :: p in image ==> r[p] == image[p]
    ensures forall p :: p in work && p !in image ==> r[p] == work[p]
  {
    work + image
  }

  /** `copy_tree` is the copy loop run over any listing of the image: writing the image's
      files one by one, in whatever order the walk yields them, gives the overlay. */
  lemma OverlayIsCopy(work: Snapshot, image: Snapshot, walk: seq<Path>)
    requires IsListing(walk, image)
    ensures forall k :: 0 <= k < |walk| ==> walk[k] in image
    ensures CopyFiles(work, image, walk) == Overlay(work, image)
  {
    var a := CopyFiles(work, image, walk);
    var b := Overlay(work, image);
    forall p
      ensures p in a <==> p in b
      ensures p in a ==> a[p] == b[p]
    {
      assert p in walk <==> p in image;
    }
    SameSnapshot(a, b);
  }
}

=== FILE: text.dfy ===
/** The Python string operations the history code is built from, on `seq<char>`:
    `find`, `split`, `join`, `readlines`, `replace`, and the slices `[:n]` and `[:-1]`. */
module Text {
  import opened Optional

  /** `sep` occurs in `s` starting at index `i`. */
  predicate OccursAt(s: string, sep: string, i: nat) {
    i + |sep| <= |s| && s[i..i + |sep|] == sep
  }

  /** Index of the first occurrence of `sep` in `s` (`str.find`, with `None` for -1). */
  function Find(s: string, sep: string): (r: Option<nat>)
    requires sep != ""
    ensures r.Some? ==> OccursAt(s, sep, r.value)
    ensures r.Some? ==> forall j: nat :: j < r.value ==> !OccursAt(s, sep, j)
    ensures r.None? ==> forall j: nat :: !OccursAt(s, sep, j)
    decreases |s|
  {
    if |s| < |sep| then None
    else if s[..|sep|] == sep then Some(0)
    else
      ShiftOccurrence(s, sep);
      match Find(s[1..], sep)
      case None => None
      case Some(i) => Some(i + 1)
  }

  lemma ShiftOccurrence(s: string, sep: string)
    requires s != ""
    ensures forall j: nat :: 0 < j ==> (OccursAt(s, sep, j) <==> OccursAt(s[1..], sep, j - 1))
  {
    forall j: nat | 0 < j
      ensures OccursAt(s, sep, j) <==> OccursAt(s[1..], sep, j - 1)
    {
      if j + |sep| <= |s| {
        var a, b := s[j..j + |sep|], s[1..][j - 1..j - 1 + |sep|];
        forall k | 0 <= k < |sep|
          ensures a[k] == b[k]
        {
        }
        assert a == b;
      }
    }
  }

  /** A one-character separator occurs exactly where that character is. */
  lemma OccursAtChar(s: string, c: char, j: nat)
    ensures OccursAt(s, [c], j) <==> (j < |s| && s[j] == c)
  {
    if j < |s| {
      assert s[j..j + 1] == [s[j]];
    }
  }

  /** The first occurrence is characterised by being an occurrence with none before it. */
  lemma FindIs(s: string, sep: string, i: nat)
    requires sep != ""
    requires OccursAt(s, sep, i)
    requires forall j: nat :: j < i ==> !OccursAt(s, sep, j)
    ensures Find(s, sep) == Some(i)
  {
  }

  lemma FindNone(s: string, sep: string)
    requires sep != ""
    requires forall j: nat :: !OccursAt(s, sep, j)
    ensures Find(s, sep) == None
  {
  }

  /** An occurrence starts with the separator's first character. */
  lemma OccursAtStart(s: string, sep: string, j: nat)
    requires sep != "" && OccursAt(s, sep, j)
    ensures j < |s| && s[j] == sep[0]
  {
    assert s[j..j + |sep|][0] == s[j];
  }

  lemma NotOccursAtIfStartDiffers(s: string, sep: string, j: nat)
    requires sep != "" && (j >= |s| || s[j] != sep[0])
    ensures !OccursAt(s, sep, j)
  {
    if j + |sep| <= |s| {
      assert s[j..j + |sep|][0] == s[j];
    }
  }

  lemma FindCharAt(x: string, c: char, y: string)
    requires c !in x
    ensures Find(x + [c] + y, [c]) == Some(|x|)
  {
    var s := x + [c] + y;
    OccursAtChar(s, c, |x|);
    forall j: nat | j < |x|
      ensures !OccursAt(s, [c], j)
    {
      OccursAtChar(s, c, j);
      assert s[j] == x[j];
    }
    FindIs(s, [c], |x|);
  }

  lemma FindCharNone(x: string, c: char)
    requires c !in x
    ensures Find(x, [c]) == None
  {
    forall j: nat
      ensures !OccursAt(x, [c], j)
    {
      OccursAtChar(x, c, j);
    }
  }

  /** `s.split(sep)`: the pieces between the non-overlapping occurrences of `sep`, left to right. */
  function Split(s: string, sep: string): (r: seq<string>)
    requires sep != ""
    ensures |r| >= 1
    decreases |s|
  {
    match Find(s, sep)
    case None => [s]
    case Some(i) => [s[..i]] + Split(s[i + |sep|..], sep)
  }

  /** `sep.join(parts)`. */
  function Join(parts: seq<string>, sep: string): string
    requires parts != []
  {
    if |parts| == 1 then parts[0] else parts[0] + sep + Join(parts[1..], sep)
  }

  /** `s.split(sep)[0]`: everything before the first `sep`, or all of `s`. */
  function FirstField(s: string, sep: string): (r: string)
    requires sep != ""
    ensures r <= s
    ensures Find(s, sep).Some? ==> r == s[..Find(s, sep).value]
    ensures Find(s, sep).None? ==> r == s
  {
    Split(s, sep)[0]
  }

  /** Joining the pieces of a split with the same separator gives back the string. */
  lemma {:induction false} JoinSplit(s: string, sep: string)
    requires sep != ""
    ensures Join(Split(s, sep), sep) == s
    decreases |s|
  {
    match Find(s, sep)
    case None =>
    case Some(i) =>
      var rest := s[i + |sep|..];
      var parts := Split(s, sep);
      assert parts == [s[..i]] + Split(rest, sep);
      assert parts[1..] == Split(rest, sep);
      JoinSplit(rest, sep);
      assert Join(parts, sep) == s[..i] + sep + rest;
      assert s == s[..i] + sep + rest;
  }

  /** Splitting pieces joined by a character that none of them contains gives back the pieces. */
  lemma {:induction false} SplitJoinChar(parts: seq<string>, c: char)
    requires parts != []
    requires forall k :: 0 <= k < |parts| ==> c !in parts[k]
    ensures Split(Join(parts, [c]), [c]) == parts
    decreases |parts|
  {
    if |parts| == 1 {
      FindCharNone(parts[0], c);
    } else {
      var tail := Join(parts[1..], [c]);
      assert Split(Join(parts, [c]), [c]) == [parts[0]] + Split(tail, [c]) by {
        SplitCharAt(parts[0], c, tail);
      }
      SplitJoinChar(parts[1..], c);
      assert parts == [parts[0]] + parts[1..];
    }
  }

  /** Splitting on a character at the first place it occurs. */
  lemma SplitCharAt(x: string, c: char, y: string)
    requires c !in x
    ensures Split(x + [c] + y, [c]) == [x] + Split(y, [c])
  {
    var s := x + [c] + y;
    FindCharAt(x, c, y);
    assert s[..|x|] == x;
    assert s[|x| + 1..] == y;
  }

  /** Splitting at a known first occurrence of a separator. */
  lemma SplitAt(s: string, sep: string, i: nat)
    requires sep != ""
    requires Find(s, sep) == Some(i)
    ensures Split(s, sep) == [s[..i]] + Split(s[i + |sep|..], sep)
  {
  }

  /** `split` yields a second piece exactly when the separator occurs. */
  lemma SplitFound(s: string, sep: string)
    requires sep != ""
    ensures |Split(s, sep)| >= 2 <==> Find(s, sep).Some?
  {
    match Find(s, sep)
    case None =>
    case Some(i) => SplitAt(s, sep, i);
  }

  /** The text up to the first newline, whatever separator cut it off first, as long as that
      separator starts with a newline. */
  lemma FirstFieldBeforeNewline(x: string, y: string, sep: string)
    requires '\n' !in x
    requires sep != "" && sep[0] == '\n'
    ensures FirstField(FirstField(x + "\n" + y, sep), "\n") == x
  {
    var t := x + "\n" + y;
    match Find(t, sep)
    case None =>
      FindCharAt(x, '\n', y);
      assert t[..|x|] == x;
    case Some(k) =>
      OccursAtStart(t, sep, k);
      if k == |x| {
        assert t[..k] == x;
        FindCharNone(x, '\n');
      } else {
        var rest := t[|x| + 1..k];
        assert t[..k] == x + "\n" + rest;
        FindCharAt(x, '\n', rest);
        assert (x + "\n" + rest)[..|x|] == x;
      }
  }

  lemma SplitCharNone(x: string, c: char)
    requires c !in x
    ensures Split(x, [c]) == [x]
  {
    FindCharNone(x, c);
  }

  /** `"".join(parts)`. */
  function Concat(parts: seq<string>): string {
    if parts == [] then "" else parts[0] + Concat(parts[1..])
  }

  lemma {:induction false} ConcatAppend(a: seq<string>, b: seq<string>)
    ensures Concat(a + b) == Concat(a) + Concat(b)
    decreases |a|
  {
    if a == [] {
      assert a + b == b;
    } else {
      ConcatAppend(a[1..], b);
      assert (a + b)[1..] == a[1..] + b;
    }
  }

  /** `readlines()` on a file holding `s`: every line keeps its terminating newline, the last
      line may lack one, and putting the lines back together gives the file. */
  function ReadLines(s: string): (r: seq<string>)
    ensures Concat(r) == s
    ensures forall k :: 0 <= k < |r| ==> r[k] != ""
    ensures forall k :: 0 <= k < |r| - 1 ==> r[k][|r[k]| - 1] == '\n'
    ensures forall k :: 0 <= k < |r| ==> '\n' !in r[k][..|r[k]| - 1]
    decreases |s|
  {
    if s == "" then []
    else match Find(s, "\n")
      case None =>
        LastLine(s);
        [s]
      case Some(i) =>
        var rest := ReadLines(s[i + 1..]);
        NewlineFreeBefore(s, i);
        CutAfter(s, i);
        LinesCons(s[..i + 1], rest);
        [s[..i + 1]] + rest
  }

  /** Without a newline the whole text is one line. */
  lemma LastLine(s: string)
    requires s != "" && Find(s, "\n").None?
    ensures Concat([s]) == s && '\n' !in s[..|s| - 1]
  {
    NewlineFreeBefore(s, |s|);
  }

  /** Cutting a text just after index `i`. */
  lemma CutAfter(s: string, i: nat)
    requires i < |s|
    ensures |s[..i + 1]| == i + 1 && s[..i + 1][i] == s[i] && s[..i + 1][..i] == s[..i]
    ensures s[..i + 1] + s[i + 1..] == s
  {
  }

  /** A line ending in its only newline, put in front of lines that `readlines` could return,
      gives lines that `readlines` could return. */
  lemma LinesCons(line: string, rest: seq<string>)
    requires line != "" && line[|line| - 1] == '\n' && '\n' !in line[..|line| - 1]
    requires forall k :: 0 <= k < |rest| ==> rest[k] != ""
    requires forall k :: 0 <= k < |rest| - 1 ==> rest[k][|rest[k]| - 1] == '\n'
    requires forall k :: 0 <= k < |rest| ==> '\n' !in rest[k][..|rest[k]| - 1]
    ensures Concat([line] + rest) == line + Concat(rest)
    ensures forall k :: 0 <= k < |[line] + rest| ==> ([line] + rest)[k] != ""
    ensures forall k :: 0 <= k < |[line] + rest| - 1 ==> ([line] + rest)[k][|([line] + rest)[k]| - 1] == '\n'
    ensures forall k :: 0 <= k < |[line] + rest| ==> '\n' !in ([line] + rest)[k][..|([line] + rest)[k]| - 1]
  {
    var r := [line] + rest;
    assert r[1..] == rest;
    forall k | 0 < k < |r|
      ensures r[k] == rest[k - 1]
    {
    }
  }

  /** No newline precedes the first one `find` reports, and none at all when it reports none. */
  lemma NewlineFreeBefore(s: string, i: nat)
    requires Find(s, "\n") == Some(i) || (Find(s, "\n").None? && i == |s|)
    ensures i <= |s| && '\n' !in s[..i]
    ensures Find(s, "\n").Some? ==> i < |s| && s[i] == '\n'
  {
    if Find(s, "\n").Some? {
      OccursAtStart(s, "\n", i);
    }
    forall j | 0 <= j < i
      ensures s[j] != '\n'
    {
      OccursAtChar(s, '\n', j);
    }
  }

  /** Reading lines off a text whose first line is `x` followed by a newline. */
  lemma ReadLinesCons(x: string, y: string)
    requires '\n' !in x
    ensures ReadLines(x + "\n" + y) == [x + "\n"] + ReadLines(y)
  {
    var s := x + "\n" + y;
    FindCharAt(x, '\n', y);
    assert s[..|x| + 1] == x + "\n";
    assert s[|x| + 1..] == y;
  }

  /** `readline()`: the first line, or "" for an empty file. */
  function FirstLine(s: string): (r: string)
    ensures r <= s
  {
    var lines := ReadLines(s);
    if lines == [] then "" else lines[0]
  }

  /** A first line never stops before the first newline. */
  lemma FirstLineKeepsPrefix(p: string, s: string)
    requires '\n' !in p
    ensures p <= FirstLine(p + s)
  {
    var t := p + s;
    if t != "" {
      match Find(t, "\n")
      case None =>
      case Some(i) =>
        assert ReadLines(t)[0] == t[..i + 1];
        assert p == t[..i + 1][..|p|];
    }
  }

  /** `s[:n]`. */
  function Take(s: string, n: nat): (r: string)
    ensures r <= s && |r| <= n
    ensures |s| >= n ==> |r| == n
  {
    if |s| <= n then s else s[..n]
  }

  /** `s[:-1]`. */
  function DropLast(s: string): (r: string)
    ensures s != "" ==> s == r + [s[|s| - 1]]
    ensures s == "" ==> r == ""
  {
    if s == "" then "" else s[..|s| - 1]
  }

  /** `s.replace(c, rep)` for a one-character pattern `c`. */
  function ReplaceAll(s: string, c: char, rep: string): (r: string)
  {
    if s == "" then ""
    else (if s[0] == c then rep else [s[0]]) + ReplaceAll(s[1..], c, rep)
  }

  lemma {:induction false} ReplaceAllAppend(a: string, b: string, c: char, rep: string)
    ensures ReplaceAll(a + b, c, rep) == ReplaceAll(a, c, rep) + ReplaceAll(b, c, rep)
    decreases |a|
  {
    if a == "" {
      assert a + b == b;
    } else {
      var h := if a[0] == c then rep else [a[0]];
      assert ReplaceAll(a + b, c, rep) == h + ReplaceAll(a[1..] + b, c, rep) by {
        assert (a + b)[0] == a[0];
        assert (a + b)[1..] == a[1..] + b;
      }
      ReplaceAllAppend(a[1..], b, c, rep);
      assert ReplaceAll(a, c, rep) == h + ReplaceAll(a[1..], c, rep);
    }
  }

  /** Nothing changes when the character does not occur. */
  lemma {:induction false} ReplaceAllAbsent(s: string, c: char, rep: string)
    requires c !in s
    ensures ReplaceAll(s, c, rep) == s
    decreases |s|
  {
    if s != "" {
      assert c !in s[1..];
      ReplaceAllAbsent(s[1..], c, rep);
    }
  }

  /** A non-empty replacement never shortens the text. */
  lemma {:induction false} ReplaceAllLonger(s: string, c: char, rep: string)
    requires rep != ""
    ensures |ReplaceAll(s, c, rep)| >= |s|
    decreases |s|
  {
    if s != "" {
      ReplaceAllLonger(s[1..], c, rep);
    }
  }

  /** Replacing a character that occurs only at the very end. */
  lemma ReplaceAllAtEnd(t: string, c: char, rep: string)
    requires c !in t
    ensures ReplaceAll(t + [c], c, rep) == t + rep
  {
    ReplaceAllAppend(t, [c], c, rep);
    ReplaceAllAbsent(t, c, rep);
    assert ReplaceAll([c], c, rep) == rep + ReplaceAll([], c, rep);
  }

  /** Writing `text` at the start of a file holding `prior` without truncating it (mode "r+"):
      whatever of `prior` lies beyond the end of `text` survives. */
  function OverwriteFromStart(prior: string, text: string): (r: string)
    ensures |text| >= |prior| ==> r == text
    ensures text <= r && |r| == if |text| >= |prior| then |text| else |prior|
  {
    if |text| >= |prior| then text else text + prior[|text|..]
  }
}
